=== FILE: README.md ===
# revChatGPT V1 chatbot: conversation state and stream parsing

This project models the synchronous `Chatbot` of `src/revChatGPT/V1.py`, an unofficial client for ChatGPT's web
back end. A `Chatbot` keeps a current `conversation_id` and `parent_id`, a `conversation_mapping` from each
conversation to its latest node, and two history lists (`conversation_id_prev_queue`, `parent_id_prev_queue`)
that `rollback_conversation` pops. `ask` does four things in order:

- it resolves which ids to send, falling back to the stored ones and resyncing the mapping from the server
  when a conversation is unknown and no parent is supplied or stored;
- it pushes the pair it sends onto the history lists;
- it reads the streamed reply line by line, yielding one record per assistant update;
- when the loop ends without raising (the body is exhausted or `[DONE]` breaks it), it commits the last ids into
  the mapping and the current ids.

The project also models the access-token cache: the base64 padding of the JWT middle segment, the expiry
check on `exp`, and the cache update.

Modules:

- `Wrappers` (`wrappers.dfy`): `Option` and `Result`.
- `Errors` (`errors.dfy`): the error codes and one `Failure` constructor per kind of exception raised.
- `Text` (`text.dfy`): the Python string operations used: `in`, `str.replace`, `str.split`.
- `StreamParser` (`stream.dfy`): one body line (`StepLine`) and the whole loop (`Run`). `Run` is a specification
  function; the imperative `ProcessLines` loop is proved equal to it. It also holds the unescaping round trip, for
  the bytes-repr escaping the replacements meet and for any other choice of escaped quotes, and a worked example: an echo frame, then a reply frame, then `[DONE]`.
- `Tracker` (`tracker.dfy`): the state as a value. `Resolve`, `AskStep`, `Reset` and `Rollback` are specification
  functions. `Replay` and `Log` cover many requests. The class `Chatbot` has the source's fields and methods
  `Ask`, `MapConversations`, `ResetChat` and `RollbackConversation`, each proved to produce exactly the
  specification function's new state.
- `TokenCache` (`token_cache.dfy`): `__get_cached_access_token` and `__cache_access_token` on the cache value.

The outside world comes in as parameters:

- the UUIDs `ask` and `reset_chat` generate (`freshId`);
- the remote conversation listing a resync reads (`listing`: each conversation's id and `current_node`);
- the HTTP reply (`Response(status, text, lines)`);
- JSON decoding (`decode`, a function from text to a shallow `Payload`);
- the JWT claim decoding (`decode` in `TokenCache`);
- the clock (`now`).

Some descriptions of this client differ from the code in two places. The model follows the code in both:

- A `detail` that is a string other than the rate-limit text does not give the "Field missing" error (code 1).
  Line 371 calls `.get` on that string, which raises AttributeError. `MissingFieldsFailure` returns `AttributeError`
  there.
- `rollback_conversation` does not restore "the ids current before the call". It restores the pair that was
  sent: the resolved ids pushed at lines 332-335 (`RollbackRestoresPushed`).

## Model

| member | source | states |
|---|---|---|
| Text.Contains | src/revChatGPT/V1.py:350 | Python's substring test; a contained string is no longer than the container |
| Text.Split | src/revChatGPT/V1.py:193 | `str.split` on one character always gives at least one piece |
| Text.JoinSplit | src/revChatGPT/V1.py:193 | joining the pieces of a split with the separator gives the original string back |
| Text.SplitPiecesFree | src/revChatGPT/V1.py:193 | no piece of a split contains the separator |
| Text.SplitHasSecondPiece | src/revChatGPT/V1.py:193-195 | `split(".")[1]` exists exactly when the token contains a '.' |
| Text.Replace | src/revChatGPT/V1.py:355-357 | definition of `str.replace`: leftmost non-overlapping occurrences; its properties are in `Text.ReplaceAbsent` and the `StreamParser.Undo*` lemmas |
| Text.ReplaceAbsent | src/revChatGPT/V1.py:355-357 | `str.replace` leaves a string without the pattern's first character unchanged |
| StreamParser.Unescape | src/revChatGPT/V1.py:355-357 | definition: the three replacements in the source's order; its properties are in `UnescapeEscape`, `UnescapeRepr` and `UnescapePlain` |
| StreamParser.ReprBody | src/revChatGPT/V1.py:344 | definition of the text inside Python's repr of a bytes value: backslashes doubled, `'` escaped unless the repr is double-quoted, `"` never escaped; `UnescapeRepr` is its round trip |
| StreamParser.UndoDoubleQuotes | src/revChatGPT/V1.py:355 | for any choice of escaped quotes, the first replacement removes every double-quote escape, and where `"` was not escaped, a doubled backslash right before it loses one backslash |
| StreamParser.UndoSingleQuotes | src/revChatGPT/V1.py:356 | the second replacement removes every single-quote escape, and where `'` was not escaped, a doubled backslash right before it loses one backslash |
| StreamParser.UndoBackslashes | src/revChatGPT/V1.py:357 | the third replacement turns each doubled backslash into one and keeps the single ones before a quote, giving the plain text |
| StreamParser.UnescapeEscape | src/revChatGPT/V1.py:355-357 | the three replacements, in the source's order, invert backslash-escaping of backslashes together with any choice of escaped quotes, including none |
| StreamParser.UnescapeRepr | src/revChatGPT/V1.py:344-357 | the three replacements give back exactly the bytes whose repr body the line is |
| StreamParser.UnescapePlain | src/revChatGPT/V1.py:355-357 | text without a backslash is unchanged by unescaping |
| StreamParser.StripFrame | src/revChatGPT/V1.py:350-351 | definition: a line holding `data: ` loses its first six characters; see `FramedStrip` |
| StreamParser.CheckFields | src/revChatGPT/V1.py:405-412 | definition of `__check_fields`: a payload object whose `message` is an object holding `content`; see `MissingContentAborts` |
| StreamParser.MissingFieldsFailure | src/revChatGPT/V1.py:365-379 | definition of the exception for a payload failing the check; see `MissingFieldsCodes` |
| StreamParser.PayloadStep | src/revChatGPT/V1.py:363-397 | definition of one decoded payload's effect; see `PayloadFailureKinds`, `YieldCarriesPayload`, `MetadataDecides` |
| StreamParser.StepLine | src/revChatGPT/V1.py:345-397 | definition of one line's effect; see `IgnorableIsSkip`, `ControlLines`, `StepFailureKinds` |
| StreamParser.Run | src/revChatGPT/V1.py:343-397 | definition of the whole loop; its properties are in `RunAppend`, `RunFinalIds`, `NoEchoYielded`, `DeltasFromLines`, `RunFailureKinds` |
| StreamParser.RunAt | src/revChatGPT/V1.py:343-397 | one more line keeps the loop's invariant: records so far followed by the loop over the rest are the whole result |
| StreamParser.ProcessLines | src/revChatGPT/V1.py:343-397 | the line loop returns exactly the records, the ending and the final ids that `Run` specifies |
| StreamParser.RunAppend | src/revChatGPT/V1.py:343-397 | the loop over two pieces of a body: the second piece is read only if the first is exhausted, and it starts from the first piece's final ids |
| StreamParser.IgnorableIsSkip | src/revChatGPT/V1.py:347-382 | a line is passed over exactly when it is blank, undecodable after unescaping, or an echo of the prompt |
| StreamParser.IgnorableLineIrrelevant | src/revChatGPT/V1.py:343-382 | removing an ignorable line anywhere in the body changes neither the records, the ids nor the ending |
| StreamParser.ControlLines | src/revChatGPT/V1.py:345-353 | the server-fault line raises "Error: Internal Server Error"; `[DONE]` ends the stream, framed or not |
| StreamParser.FramedStrip | src/revChatGPT/V1.py:350-351 | a line that starts with `data: ` loses exactly that marker |
| StreamParser.StopLineCutsStream | src/revChatGPT/V1.py:343-397 | after a line that ends or aborts the loop, the rest of the body is never read |
| StreamParser.MissingContentAborts | src/revChatGPT/V1.py:405-412 | a decoded payload without `message.content` aborts the loop on that line, whatever follows |
| StreamParser.MissingFieldsCodes | src/revChatGPT/V1.py:363-379 | the failure for missing fields, case by case: rate-limit text gives code 2, an `invalid_api_key` detail gives code 3 with its message, no detail gives code 1, a non-dict payload or a non-dict detail gives AttributeError |
| StreamParser.PayloadFailureKinds | src/revChatGPT/V1.py:363-388 | a payload only ever raises a code 1-3 error, a lookup error, an attribute error or a type error |
| StreamParser.StepFailureKinds | src/revChatGPT/V1.py:345-388 | a line only ever raises the server fault or a payload's failure kinds |
| StreamParser.RunFailureKinds | src/revChatGPT/V1.py:343-397 | the loop never raises the user error (-1) or an HTTP error; every abort is one of the line failure kinds |
| StreamParser.NoEchoYielded | src/revChatGPT/V1.py:380-382 | no yielded record's text equals the prompt |
| StreamParser.RunFinalIds | src/revChatGPT/V1.py:383-398 | the loop's final ids are the last record's ids, or the resolved ids when nothing was yielded |
| StreamParser.DeltasFromLines | src/revChatGPT/V1.py:343-397 | every yielded record is the record of some line of the body, built from that line's payload |
| StreamParser.YieldCarriesPayload | src/revChatGPT/V1.py:380-397 | a yielded record carries `parts[0]`, `conversation_id`, `message.id` and `model_slug` of its payload, whose `metadata` is missing or an object |
| StreamParser.MetadataDecides | src/revChatGPT/V1.py:383-388 | once text and ids are read, a non-object `metadata` aborts the loop with TypeError; a missing one or an object yields a record whose model is its `model_slug` (None when missing) |
| StreamParser.SkipYieldFinish | src/revChatGPT/V1.py:343-397 | a skipped line, a yielding line and `[DONE]` give exactly one record and end on the sentinel with its ids |
| StreamParser.EchoFrameSkipped | src/revChatGPT/V1.py:380-382 | the worked example's echo frame is passed over |
| StreamParser.ReplyFrameYielded | src/revChatGPT/V1.py:380-397 | the worked example's reply frame yields ("Hi there", c1, m2, no model) |
| StreamParser.EchoThenReply | src/revChatGPT/V1.py:343-397 | echo, reply, `[DONE]` for the prompt "Hello" gives exactly the reply record, ending on the sentinel with ids c1, m2 |
| Tracker.Or | src/revChatGPT/V1.py:294-295 | definition of Python's `or` on optional ids: None and the empty string fall back |
| Tracker.MergeListing | src/revChatGPT/V1.py:496-500 | definition of the resync's update, in listing order; see `MergeListingKeys`, `MergeListingLast`, `MergeListingUnlisted` |
| Tracker.LastListed | src/revChatGPT/V1.py:499-500 | the last position of a conversation in the listing: it holds that conversation and no later position does, or -1 when none does |
| Tracker.MergeListingLast | src/revChatGPT/V1.py:499-500 | after a resync a listed conversation maps to the `current_node` of its last listing, so later entries override earlier ones |
| Tracker.MergeListingUnlisted | src/revChatGPT/V1.py:499-500 | after a resync a key that is not listed keeps its old node |
| Tracker.MergeListingKeys | src/revChatGPT/V1.py:496-500 | after a resync a conversation is known exactly when it was mapped before or is listed; no key is removed |
| Tracker.Resolve | src/revChatGPT/V1.py:286-313 | definition of the id resolution; see `ResolveOrder`, `ResyncTakesListedNode`, `UserErrorIff` |
| Tracker.ResolveOrder | src/revChatGPT/V1.py:286-313 | the resolution order: the user error exactly for a parent without a conversation; a new explicit conversation drops the stored parent; `or` fallback to the stored ids; the fresh id as parent when both are missing; the parent from the mapping otherwise: the stored mapping's entry, unchanged, for a known conversation, and a resync exactly for an unknown one, with KeyError, keeping the merged mapping, exactly when neither the mapping nor the listing knows it |
| Tracker.ResyncTakesListedNode | src/revChatGPT/V1.py:298-313 | after a resync the parent sent is the `current_node` of the conversation's last listing, and the mapping is the merged one |
| Tracker.AskStep | src/revChatGPT/V1.py:286-402 | definition of one `ask` consumed to the end; see `AskPushesOnce`, `UserErrorIff`, `CommitAfterStream`, `AskKeepsMappingKeys` |
| Tracker.Commit | src/revChatGPT/V1.py:398-402 | definition of the commit; see `CommitAfterStream` |
| Tracker.AskPushesOnce | src/revChatGPT/V1.py:332-335 | a request that passes resolution pushes exactly its resolved pair onto both lists, however the reply ends; one that fails pushes nothing; the lists stay the same length |
| Tracker.UserErrorIff | src/revChatGPT/V1.py:286-288 | the user error (-1) is raised exactly for a parent without a conversation, and then no field, list or mapping changes and nothing is yielded |
| Tracker.AskFinished | src/revChatGPT/V1.py:332-402 | a request finishes if and only if it was resolved, got status 200 and its loop did not raise; a finished one's state is the commit of the loop's final ids |
| Tracker.CommitAfterStream | src/revChatGPT/V1.py:398-402 | a finished request maps the loop's last conversation to its last node; the stored ids take the final ids only where they are not None |
| Tracker.AskRaisedNoCommit | src/revChatGPT/V1.py:286-402 | a request that raises commits nothing: after the push a status error leaves no record and raises HttpStatusError, a raising loop leaves its records and its failure, and KeyError keeps only the parent reset and the resynced mapping |
| Tracker.AskKeepsMappingKeys | src/revChatGPT/V1.py:286-402 | `ask` never removes a mapping entry |
| Tracker.ResyncAtMostOnce | src/revChatGPT/V1.py:298-313 | after a finished request for a conversation whose reply kept its id, a later parent-less request for it resolves without a resync; where the stored parent does not supply the parent, it is the mapping's entry for the conversation |
| Tracker.Reset | src/revChatGPT/V1.py:503-510 | `reset_chat` clears the conversation, sets the fresh parent, and leaves the lists and the mapping as they were |
| Tracker.Rollback | src/revChatGPT/V1.py:513-521 | definition of the pops; see `RollbackWithin`, `RollbackBeyond`, `RollbackKeepsBalance` |
| Tracker.RollbackKeepsBalance | src/revChatGPT/V1.py:519-521 | rolling back keeps the two lists the same length, however it ends |
| Tracker.RollbackWithin | src/revChatGPT/V1.py:513-521 | rolling back n steps, with n at most the history length, drops the last n entries of both lists and makes the n-th most recent pair current |
| Tracker.RollbackBeyond | src/revChatGPT/V1.py:513-521 | rolling back more steps than there are entries empties both lists, makes the oldest pair current, and fails with IndexError |
| Tracker.Replay | src/revChatGPT/V1.py:286-402 | definition of a sequence of `ask` calls; see `ReplayQueues` |
| Tracker.Log | src/revChatGPT/V1.py:332-335 | definition of the pairs a sequence of requests pushes; see `ReplayQueues`, `RollbackRestoresPushed` |
| Tracker.ReplayQueues | src/revChatGPT/V1.py:332-335 | after any sequence of requests, the lists are the old lists followed by the pairs pushed, oldest first |
| Tracker.RollbackIntoLog | src/revChatGPT/V1.py:513-521 | rolling back k entries of a pushed log on top of balanced lists makes the k-th most recent pushed pair current and keeps the entries before it |
| Tracker.RollbackRestoresPushed | src/revChatGPT/V1.py:513-521 | after any sequence of requests, rolling back k pushed entries restores the pair the k-th most recent request that got past resolution was sent with, however its reply ended, and leaves the mapping as it was |
| Tracker.Chatbot.constructor | src/revChatGPT/V1.py:139-143 | the given ids, an empty mapping and empty lists |
| Tracker.Chatbot.MapConversations | src/revChatGPT/V1.py:496-500 | the loop maps each listed conversation to its current node, in order, changes nothing else, and keeps the lists balanced |
| Tracker.Chatbot.Ask | src/revChatGPT/V1.py:286-402 | the new fields, the records and the outcome are exactly those of `AskStep` on the old fields |
| Tracker.Chatbot.ResetChat | src/revChatGPT/V1.py:503-510 | the new fields are exactly `Reset` of the old, and the lists stay balanced |
| Tracker.Chatbot.RollbackConversation | src/revChatGPT/V1.py:513-521 | the pop loop gives exactly `Rollback`'s new fields, fails where a pop raises IndexError, and keeps balanced lists balanced |
| TokenCache.PadLength | src/revChatGPT/V1.py:195 | the number of '=' added is below four and brings the length to a multiple of four |
| TokenCache.PadSegment | src/revChatGPT/V1.py:195 | the padded segment extends the segment, only with '=', to a multiple of four, adding fewer than four characters |
| TokenCache.PadSegmentIdempotent | src/revChatGPT/V1.py:195 | padding a padded segment changes nothing |
| TokenCache.CacheKey | src/revChatGPT/V1.py:185 | a missing or empty e-mail is stored under "default", any other under itself; the key is never empty |
| TokenCache.Lookup | src/revChatGPT/V1.py:187 | definition of `cache.get("access_tokens", {}).get(key, None)`; see `CacheAccessToken`, `CachedTokenReadBack` |
| TokenCache.ValidateToken | src/revChatGPT/V1.py:191-217 | definition of the check on a stored token; see `ValidateTokenOutcomes`, `ExpiredStaysExpired` |
| TokenCache.GetCachedAccessToken | src/revChatGPT/V1.py:184-219 | definition of `__get_cached_access_token`; see `MissingExpNeverExpires`, `CachedTokenReadBack` |
| TokenCache.ValidateTokenOutcomes | src/revChatGPT/V1.py:190-217 | each outcome of the check on a stored token has exactly its cause: IndexError for a token without '.', code 5 for an undecodable segment, code 4 for an `exp` before now; otherwise the token itself is returned |
| TokenCache.MissingExpNeverExpires | src/revChatGPT/V1.py:211-217 | a decodable token without `exp` is returned at any time |
| TokenCache.ExpiredStaysExpired | src/revChatGPT/V1.py:211-217 | a token rejected as expired is still rejected at any later time |
| TokenCache.CacheAccessToken | src/revChatGPT/V1.py:222-228 | the token is stored under the e-mail's key; every other key's token and every other top-level entry are unchanged; "access_tokens" is created if missing |
| TokenCache.CachedTokenReadBack | src/revChatGPT/V1.py:184-228 | reading right after caching checks exactly the token just stored, under the same key rule |

## Left out

- HTTP transport: `session.post`, streaming, the timeout and `iter_lines` are out. The reply is an input.
  `__check_response` (lines 415-419) is modelled only as "status other than 200 gives `HttpStatusError(status, text)`".
  The source builds that `Error` with the status code as its message and the text as its code (line 418).
  The model keeps it as a separate failure kind, so no code is assigned to it.
- `str(line)[2:-1]` (line 344): the body's lines are given as text, after that conversion. `ReprBody` models only
  the repr's escaping of backslashes and quotes. Its `\n`, `\t` and `\xhh` escapes of control and non-ASCII bytes are
  not modelled; the replacements at lines 355-357 leave those in place.
- JSON decoding is the `decode` parameter. A payload is a shallow datatype with only the fields the loop reads.
  A `content` that is not an object, or a `parts` that is missing, null, empty or not a list of strings, is folded
  into `LookupError`. Depending on the JSON type, the source raises KeyError, TypeError or IndexError there, and a
  string `parts` would even yield its first character. A non-object `metadata` is modelled as `TypeError`.
- The request body (`data`) is out: the message UUID and the model name are not modelled. Only the two ids sent are
  modelled, as the pair pushed onto the lists.
- A caller that stops consuming `ask`'s generator early is not modelled. The model runs the generator until it is
  exhausted or raises, so the commit at lines 398-402 happens exactly when the loop ends without raising (`AskFinished`, `AskRaisedNoCommit`).
- `get_conversations` and `get_msg_history`: their results are the `listing` input of a resync, and their own
  failures are out. `gen_title`, `change_title`, `delete_conversation` and `clear_conversations` are remote calls
  outside this model.
- Login, credentials and headers (lines 148-182 and 244-268), `__read_cache` and `__write_cache` (the file I/O),
  and the `logger` decorator are out. The cache is a value: the string tables stand for the JSON file's contents.
- The clock is an integer `now`, not a floating-point `time.time()`. Base64 and JSON decoding of the claims is the
  `decode` parameter. A UnicodeDecodeError from `json.loads` and non-dict claims are not told apart from an
  undecodable segment.
- Tracker.Chatbot.RollbackConversation: the IndexError on an empty list is reported as `completed == false`, not
  raised. The pops before it are kept, as in the source.
- `AsyncChatbot` (lines 524-709) and the command-line interface (lines 711 onwards) are outside this model.

=== FILE: errors.dfy ===
/** The exceptions the modelled code raises, one constructor per kind. */
module Errors {
  import opened Wrappers

  /** Error codes of the module's own exception class (src/revChatGPT/V1.py:67-87). */
  const UserErrorCode := -1
  const ServerErrorCode := 1
  const RateLimitCode := 2
  const InvalidRequestCode := 3
  const ExpiredTokenCode := 4
  const InvalidTokenCode := 5

  datatype Failure =
    /** The module's `Error(source, message, code)`; `message` is None where the source passes None. */
    | ChatError(source: string, message: Option<string>, code: int)
    /** The plain `Exception("Error: " + line)` raised on the server-fault line. */
    | ServerFault(text: string)
    /** The error raised for a non-200 HTTP status. */
    | HttpStatusError(status: int, text: string)
    /** Python's KeyError or IndexError (both are LookupError) escaping a lookup the code does not guard. */
    | LookupError
    /** Python's AttributeError: `.get` called on a value that is not a dict. */
    | AttributeError
    /** Python's TypeError: a JSON value that is not an object indexed with a string key. */
    | TypeError
}

=== FILE: stream.dfy ===
/** The line-by-line processor of the streamed reply of `Chatbot.ask`
    (src/revChatGPT/V1.py:343-397) and the fields check `__check_fields`
    (src/revChatGPT/V1.py:405-412). JSON decoding is a parameter. */
module StreamParser {
  import opened Wrappers
  import opened Errors
  import opened Text

  type Id = string

  /** The line the server sends on an internal fault. */
  const FaultLine := "Internal Server Error"
  /** The event-frame marker; a line holding it loses its first six characters. */
  const FramePrefix := "data: "
  /** The completion sentinel. */
  const DoneSentinel := "[DONE]"
  /** The `detail` text of the rate-limit reply. */
  const RateLimitText := "Too many requests in 1 hour. Try again later."
  /** The `detail.code` of the invalid-key reply. */
  const InvalidKeyCode := "invalid_api_key"
  /** The message of the code-1 error. */
  const FieldMissing := "Field missing"

  /** A JSON member that should hold a string: absent from its object, `null`, or a string. */
  datatype StrField = Absent | Null | Str(s: string) {
    /** What Python reads from a member that is present: None for `null`. */
    function Value(): Option<string>
      requires !Absent?
    {
      if Null? then None else Some(s)
    }
  }

  /** The top-level `detail` member of a payload. */
  datatype Detail =
    | NoDetail
    | DetailText(text: string)
    | DetailObject(code: Option<string>, message: Option<string>)
    /** `null`, a number, a boolean or a list: none of them has `.get`. */
    | DetailOther

  /** `message.content`; `parts` is None unless it is an object holding a list of strings under "parts". */
  datatype Content = Content(parts: Option<seq<string>>)

  /** `message.metadata`: missing (the KeyError is caught, lines 385-388), an object with its
      `model_slug` (None when that key is missing or null), or another JSON value, which raises
      TypeError when indexed at line 386. */
  datatype Metadata = NoMetadata | MetadataObject(modelSlug: Option<string>) | MetadataOther {
    /** The `model` of the yielded record. */
    function ModelSlug(): Option<string> {
      if MetadataObject? then modelSlug else None
    }
  }

  /** `message`, present as an object. */
  datatype Message = Message(content: Option<Content>, id: StrField, metadata: Metadata)

  /** A decoded line. `message` is None when it is missing or not an object. */
  datatype Payload =
    | Object(message: Option<Message>, conversationId: StrField, detail: Detail)
    | NonObject

  /** One yielded record: the whole text so far, and the ids to continue from. */
  datatype Delta = Delta(message: string, conversationId: Option<Id>, parentId: Option<Id>, model: Option<string>)

  /** What one line does to the loop. */
  datatype LineStep = Skip | Finish | Raise(failure: Failure) | Yield(delta: Delta)

  /** How the loop ended: body exhausted, `break` on the sentinel, or an exception. */
  datatype StreamEnd = EndOfBody | Sentinel | Aborted(failure: Failure)

  /** Everything yielded, how the loop ended, and the loop's final local ids. */
  datatype StreamResult = StreamResult(deltas: seq<Delta>, end: StreamEnd, conversationId: Option<Id>, parentId: Option<Id>)

  // ---------------------------------------------------------------------------
  // Unescaping (src/revChatGPT/V1.py:355-357) and the escaping it undoes

  /** The three replacements, in the source's order. */
  function Unescape(line: string): string {
    Replace(Replace(Replace(line, "\\\"", "\""), "\\'", "'"), "\\\\", "\\")
  }

  /** How the first character of `s` is written in a backslash-escaped text. `doubleQuote` and
      `singleQuote` say whether that quote is still escaped. `shortDouble` and `shortSingle` say
      whether a backslash just before that (unescaped) quote is written as one character: this is
      what the first two replacements leave where an escaped backslash meets a quote. */
  function Token(s: string, doubleQuote: bool, singleQuote: bool, shortDouble: bool, shortSingle: bool): string
    requires s != []
  {
    if s[0] == '\\' then
      if |s| > 1 && ((s[1] == '"' && shortDouble) || (s[1] == '\'' && shortSingle)) then "\\" else "\\\\"
    else if s[0] == '"' && doubleQuote then "\\\""
    else if s[0] == '\'' && singleQuote then "\\'"
    else [s[0]]
  }

  function Encoded(s: string, doubleQuote: bool, singleQuote: bool, shortDouble: bool, shortSingle: bool): string
    decreases |s|
  {
    if s == [] then []
    else Token(s, doubleQuote, singleQuote, shortDouble, shortSingle)
         + Encoded(s[1..], doubleQuote, singleQuote, shortDouble, shortSingle)
  }

  /** Backslash-escaping: every backslash doubled, and each kind of quote escaped when asked. */
  function EscapeWith(s: string, doubleQuote: bool, singleQuote: bool): string {
    Encoded(s, doubleQuote, singleQuote, false, false)
  }

  /** The text between the quotes of Python's repr of a bytes value, which `str(line)[2:-1]` (line 344)
      produces. The repr is quoted with `"` when the value holds `'` but no `"`, and with `'` otherwise.
      It doubles backslashes and escapes its own quote character, so `"` is never escaped. The `\n`,
      `\t` and `\xhh` escapes of control and non-ASCII bytes are not modelled. */
  function ReprBody(s: string): string {
    var doubleQuoted := '\'' in s && '"' !in s;
    EscapeWith(s, false, !doubleQuoted)
  }

  lemma EncodedStart(s: string, doubleQuote: bool, singleQuote: bool, shortDouble: bool, shortSingle: bool)
    requires s != []
    ensures var e := Encoded(s, doubleQuote, singleQuote, shortDouble, shortSingle);
      e != [] && e[0] == (if s[0] == '\\' || (s[0] == '"' && doubleQuote) || (s[0] == '\'' && singleQuote) then '\\' else s[0])
  {
  }

  lemma EncodedUnfold(s: string, doubleQuote: bool, singleQuote: bool, shortDouble: bool, shortSingle: bool)
    requires s != []
    ensures Encoded(s, doubleQuote, singleQuote, shortDouble, shortSingle)
         == Token(s, doubleQuote, singleQuote, shortDouble, shortSingle)
            + Encoded(s[1..], doubleQuote, singleQuote, shortDouble, shortSingle)
  {
  }

  /** Two characters that do not start the pattern pass through Replace unchanged. */
  lemma ReplacePassTwo(c: char, d: char, e: string, pat: string, rep: string)
    requires |pat| == 2 && c == pat[0] && d != pat[1] && d != pat[0]
    ensures Replace([c, d] + e, pat, rep) == [c, d] + Replace(e, pat, rep)
  {
    assert [c, d] + e == [c] + ([d] + e);
    NotPrefix(pat, [c] + ([d] + e), 1);
    ReplaceStep(c, [d] + e, pat, rep);
    NotPrefix(pat, [d] + e, 0);
    ReplaceStep(d, e, pat, rep);
  }

  /** An escaped backslash followed by text that does not start with `pat[1]` passes through unchanged. */
  lemma ReplacePassBackslash(e: string, pat: string, rep: string)
    requires |pat| == 2 && pat[0] == '\\' && pat[1] != '\\' && (e != [] ==> e[0] != pat[1])
    ensures Replace("\\\\" + e, pat, rep) == "\\\\" + Replace(e, pat, rep)
  {
    assert "\\\\" + e == ['\\'] + (['\\'] + e);
    NotPrefix(pat, ['\\'] + (['\\'] + e), 1);
    ReplaceStep('\\', ['\\'] + e, pat, rep);
    NotPrefix(pat, ['\\'] + e, 1);
    ReplaceStep('\\', e, pat, rep);
  }

  /** An escaped backslash right before the pattern: the first backslash passes, the pattern is replaced. */
  lemma ReplaceBackslashHit(e: string, pat: string, rep: string)
    requires |pat| == 2 && pat[0] == '\\' && pat[1] != '\\'
    ensures Replace("\\" + pat + e, pat, rep) == "\\" + rep + Replace(e, pat, rep)
  {
    assert "\\" + pat + e == ['\\'] + (pat + e);
    NotPrefix(pat, ['\\'] + (pat + e), 1);
    ReplaceStep('\\', pat + e, pat, rep);
    ReplaceHit(e, pat, rep);
  }

  /** A character that is not a backslash passes through any of the three replacements. */
  lemma ReplacePlain(c: char, e: string, pat: string, rep: string)
    requires |pat| == 2 && pat[0] == '\\' && c != '\\'
    ensures Replace([c] + e, pat, rep) == [c] + Replace(e, pat, rep)
  {
    NotPrefix(pat, [c] + e, 0);
    ReplaceStep(c, e, pat, rep);
  }

  /** Pass one at a backslash before an unescaped `"`: both characters are handled at once. */
  lemma UndoDoubleQuoteShort(s: string, doubleQuote: bool, singleQuote: bool)
    requires |s| > 1 && s[0] == '\\' && s[1] == '"' && !doubleQuote
    requires Replace(EscapeWith(s[2..], doubleQuote, singleQuote), "\\\"", "\"")
          == Encoded(s[2..], false, singleQuote, !doubleQuote, false)
    ensures Replace(EscapeWith(s, doubleQuote, singleQuote), "\\\"", "\"")
         == Encoded(s, false, singleQuote, !doubleQuote, false)
  {
    var pat, rep := "\\\"", "\"";
    EncodedUnfold(s, doubleQuote, singleQuote, false, false);
    EncodedUnfold(s, false, singleQuote, !doubleQuote, false);
    EncodedUnfold(s[1..], doubleQuote, singleQuote, false, false);
    EncodedUnfold(s[1..], false, singleQuote, !doubleQuote, false);
    assert s[1..][1..] == s[2..];
    ReplaceBackslashHit(EscapeWith(s[2..], doubleQuote, singleQuote), pat, rep);
    assert EscapeWith(s, doubleQuote, singleQuote) == "\\" + pat + EscapeWith(s[2..], doubleQuote, singleQuote);
  }

  /** Pass one at any other first character: it is handled alone. */
  lemma UndoDoubleQuoteStep(s: string, doubleQuote: bool, singleQuote: bool)
    requires s != [] && !(|s| > 1 && s[0] == '\\' && s[1] == '"' && !doubleQuote)
    requires Replace(EscapeWith(s[1..], doubleQuote, singleQuote), "\\\"", "\"")
          == Encoded(s[1..], false, singleQuote, !doubleQuote, false)
    ensures Replace(EscapeWith(s, doubleQuote, singleQuote), "\\\"", "\"")
         == Encoded(s, false, singleQuote, !doubleQuote, false)
  {
    var pat, rep := "\\\"", "\"";
    var rest := EscapeWith(s[1..], doubleQuote, singleQuote);
    EncodedUnfold(s, doubleQuote, singleQuote, false, false);
    EncodedUnfold(s, false, singleQuote, !doubleQuote, false);
    if s[0] == '\\' {
      if s[1..] != [] {
        EncodedStart(s[1..], doubleQuote, singleQuote, false, false);
      }
      ReplacePassBackslash(rest, pat, rep);
    } else if s[0] == '"' && doubleQuote {
      ReplaceHit(rest, pat, rep);
    } else if s[0] == '\'' && singleQuote {
      ReplacePassTwo('\\', '\'', rest, pat, rep);
    } else {
      ReplacePlain(s[0], rest, pat, rep);
    }
  }

  /** The first replacement removes the double-quote escapes. Where `"` was not escaped, a doubled
      backslash right before it loses one backslash. */
  lemma {:induction false} UndoDoubleQuotes(s: string, doubleQuote: bool, singleQuote: bool)
    ensures Replace(EscapeWith(s, doubleQuote, singleQuote), "\\\"", "\"")
         == Encoded(s, false, singleQuote, !doubleQuote, false)
    decreases |s|
  {
    if |s| > 1 && s[0] == '\\' && s[1] == '"' && !doubleQuote {
      UndoDoubleQuotes(s[2..], doubleQuote, singleQuote);
      UndoDoubleQuoteShort(s, doubleQuote, singleQuote);
    } else if s != [] {
      UndoDoubleQuotes(s[1..], doubleQuote, singleQuote);
      UndoDoubleQuoteStep(s, doubleQuote, singleQuote);
    }
  }

  /** Pass two at a backslash before an unescaped `'`: both characters are handled at once. */
  lemma UndoSingleQuoteShort(s: string, shortDouble: bool, singleQuote: bool)
    requires |s| > 1 && s[0] == '\\' && s[1] == '\'' && !singleQuote
    requires Replace(Encoded(s[2..], false, singleQuote, shortDouble, false), "\\'", "'")
          == Encoded(s[2..], false, false, shortDouble, !singleQuote)
    ensures Replace(Encoded(s, false, singleQuote, shortDouble, false), "\\'", "'")
         == Encoded(s, false, false, shortDouble, !singleQuote)
  {
    var pat, rep := "\\'", "'";
    EncodedUnfold(s, false, singleQuote, shortDouble, false);
    EncodedUnfold(s, false, false, shortDouble, !singleQuote);
    EncodedUnfold(s[1..], false, singleQuote, shortDouble, false);
    EncodedUnfold(s[1..], false, false, shortDouble, !singleQuote);
    assert s[1..][1..] == s[2..];
    ReplaceBackslashHit(Encoded(s[2..], false, singleQuote, shortDouble, false), pat, rep);
    assert Encoded(s, false, singleQuote, shortDouble, false) == "\\" + pat + Encoded(s[2..], false, singleQuote, shortDouble, false);
  }

  /** Pass two at any other first character: it is handled alone. */
  lemma UndoSingleQuoteStep(s: string, shortDouble: bool, singleQuote: bool)
    requires s != [] && !(|s| > 1 && s[0] == '\\' && s[1] == '\'' && !singleQuote)
    requires Replace(Encoded(s[1..], false, singleQuote, shortDouble, false), "\\'", "'")
          == Encoded(s[1..], false, false, shortDouble, !singleQuote)
    ensures Replace(Encoded(s, false, singleQuote, shortDouble, false), "\\'", "'")
         == Encoded(s, false, false, shortDouble, !singleQuote)
  {
    var pat, rep := "\\'", "'";
    var rest := Encoded(s[1..], false, singleQuote, shortDouble, false);
    EncodedUnfold(s, false, singleQuote, shortDouble, false);
    EncodedUnfold(s, false, false, shortDouble, !singleQuote);
    if s[0] == '\\' && |s| > 1 && s[1] == '"' && shortDouble {
      EncodedStart(s[1..], false, singleQuote, shortDouble, false);
      NotPrefix(pat, ['\\'] + rest, 1);
      ReplaceStep('\\', rest, pat, rep);
    } else if s[0] == '\\' {
      if s[1..] != [] {
        EncodedStart(s[1..], false, singleQuote, shortDouble, false);
      }
      ReplacePassBackslash(rest, pat, rep);
    } else if s[0] == '\'' && singleQuote {
      ReplaceHit(rest, pat, rep);
    } else {
      ReplacePlain(s[0], rest, pat, rep);
    }
  }

  /** The second replacement removes the single-quote escapes. Where `'` was not escaped, a doubled
      backslash right before it loses one backslash. */
  lemma {:induction false} UndoSingleQuotes(s: string, shortDouble: bool, singleQuote: bool)
    ensures Replace(Encoded(s, false, singleQuote, shortDouble, false), "\\'", "'")
         == Encoded(s, false, false, shortDouble, !singleQuote)
    decreases |s|
  {
    if |s| > 1 && s[0] == '\\' && s[1] == '\'' && !singleQuote {
      UndoSingleQuotes(s[2..], shortDouble, singleQuote);
      UndoSingleQuoteShort(s, shortDouble, singleQuote);
    } else if s != [] {
      UndoSingleQuotes(s[1..], shortDouble, singleQuote);
      UndoSingleQuoteStep(s, shortDouble, singleQuote);
    }
  }

  /** The third replacement turns each doubled backslash into one, and leaves the single backslashes
      that stand before a quote. */
  lemma {:induction false} UndoBackslashes(s: string, shortDouble: bool, shortSingle: bool)
    ensures Replace(Encoded(s, false, false, shortDouble, shortSingle), "\\\\", "\\") == s
    decreases |s|
  {
    var pat, rep := "\\\\", "\\";
    if s != [] {
      var rest := Encoded(s[1..], false, false, shortDouble, shortSingle);
      EncodedUnfold(s, false, false, shortDouble, shortSingle);
      UndoBackslashes(s[1..], shortDouble, shortSingle);
      if s[0] == '\\' && |s| > 1 && ((s[1] == '"' && shortDouble) || (s[1] == '\'' && shortSingle)) {
        EncodedStart(s[1..], false, false, shortDouble, shortSingle);
        NotPrefix(pat, ['\\'] + rest, 1);
        ReplaceStep('\\', rest, pat, rep);
      } else if s[0] == '\\' {
        ReplaceHit(rest, pat, rep);
      } else {
        ReplacePlain(s[0], rest, pat, rep);
      }
      assert s == [s[0]] + s[1..];
    }
  }

  /** The three replacements, applied in the source's order, undo backslash-escaping exactly,
      whichever kinds of quote were escaped. */
  lemma UnescapeEscape(s: string, doubleQuote: bool, singleQuote: bool)
    ensures Unescape(EscapeWith(s, doubleQuote, singleQuote)) == s
  {
    UndoDoubleQuotes(s, doubleQuote, singleQuote);
    UndoSingleQuotes(s, !doubleQuote, singleQuote);
    UndoBackslashes(s, !doubleQuote, !singleQuote);
  }

  /** The replacements give back the bytes whose repr the line was cut from. */
  lemma UnescapeRepr(s: string)
    ensures Unescape(ReprBody(s)) == s
  {
    UnescapeEscape(s, false, !('\'' in s && '"' !in s));
  }

  /** Text without backslashes passes through unchanged. */
  lemma UnescapePlain(s: string)
    requires forall i :: 0 <= i < |s| ==> s[i] != '\\'
    ensures Unescape(s) == s
  {
    ReplaceAbsent(s, "\\\"", "\"");
    ReplaceAbsent(s, "\\'", "'");
    ReplaceAbsent(s, "\\\\", "\\");
  }

  // ---------------------------------------------------------------------------
  // One line (src/revChatGPT/V1.py:345-397)

  /** Lines 350-351: a line that holds the marker anywhere loses its first six characters. */
  function StripFrame(line: string): string {
    if Contains(line, FramePrefix) then line[|FramePrefix|..] else line
  }

  /** `__check_fields`: `data["message"]["content"]` neither raises KeyError nor TypeError. */
  predicate CheckFields(p: Payload) {
    p.Object? && p.message.Some? && p.message.value.content.Some?
  }

  /** Lines 365-379: the exception raised for a payload that fails the fields check. */
  function MissingFieldsFailure(p: Payload): Failure {
    match p
    case NonObject => AttributeError
    case Object(_, _, detail) =>
      match detail
      case NoDetail => ChatError("ask", Some(FieldMissing), ServerErrorCode)
      case DetailText(t) =>
        if t == RateLimitText then ChatError("ask", Some(t), RateLimitCode) else AttributeError
      case DetailObject(code, message) =>
        if code == Some(InvalidKeyCode) then ChatError("ask", message, InvalidRequestCode)
        else ChatError("ask", Some(FieldMissing), ServerErrorCode)
      case DetailOther => AttributeError
  }

  /** Lines 363-397 for one decoded payload. */
  function PayloadStep(p: Payload, prompt: string): LineStep {
    if !CheckFields(p) then Raise(MissingFieldsFailure(p))
    else
      var m := p.message.value;
      match m.content.value.parts
      case None => Raise(LookupError)
      case Some(parts) =>
        if parts == [] then Raise(LookupError)
        else if parts[0] == prompt then Skip
        else if p.conversationId.Absent? || m.id.Absent? then Raise(LookupError)
        else if m.metadata.MetadataOther? then Raise(TypeError)
        else Yield(Delta(parts[0], p.conversationId.Value(), m.id.Value(), m.metadata.ModelSlug()))
  }

  /** Lines 345-397 for one line of the body. */
  function StepLine(line: string, prompt: string, decode: string -> Option<Payload>): LineStep {
    if line == FaultLine then Raise(ServerFault("Error: " + line))
    else if line == "" then Skip
    else
      var body := StripFrame(line);
      if body == DoneSentinel then Finish
      else
        match decode(Unescape(body))
        case None => Skip
        case Some(p) => PayloadStep(p, prompt)
  }

  // ---------------------------------------------------------------------------
  // The whole loop

  function Prepend(ds: seq<Delta>, r: StreamResult): StreamResult {
    r.(deltas := ds + r.deltas)
  }

  /** The loop of lines 343-397 run over `lines`, starting from the resolved ids. */
  function Run(lines: seq<string>, prompt: string, decode: string -> Option<Payload>,
               conversationId: Option<Id>, parentId: Option<Id>): StreamResult
    decreases |lines|
  {
    if lines == [] then StreamResult([], EndOfBody, conversationId, parentId)
    else
      match StepLine(lines[0], prompt, decode)
      case Skip => Run(lines[1..], prompt, decode, conversationId, parentId)
      case Finish => StreamResult([], Sentinel, conversationId, parentId)
      case Raise(f) => StreamResult([], Aborted(f), conversationId, parentId)
      case Yield(d) => Prepend([d], Run(lines[1..], prompt, decode, d.conversationId, d.parentId))
  }

  /** What one more line does to the loop's invariant: the records so far, followed by the loop
      over the rest from the current ids, are the whole loop's result. */
  lemma RunAt(lines: seq<string>, i: nat, prompt: string, decode: string -> Option<Payload>,
              whole: StreamResult, deltas: seq<Delta>, c: Option<Id>, p: Option<Id>)
    requires i < |lines|
    requires whole == Prepend(deltas, Run(lines[i..], prompt, decode, c, p))
    ensures var step := StepLine(lines[i], prompt, decode);
      && (step.Skip? ==> whole == Prepend(deltas, Run(lines[i + 1..], prompt, decode, c, p)))
      && (step.Finish? ==> whole == StreamResult(deltas, Sentinel, c, p))
      && (step.Raise? ==> whole == StreamResult(deltas, Aborted(step.failure), c, p))
      && (step.Yield? ==> whole == Prepend(deltas + [step.delta],
                                           Run(lines[i + 1..], prompt, decode, step.delta.conversationId, step.delta.parentId)))
  {
    assert lines[i..][1..] == lines[i + 1..];
    assert deltas + [] == deltas;
    var step := StepLine(lines[i], prompt, decode);
    if step.Yield? {
      var rest := Run(lines[i + 1..], prompt, decode, step.delta.conversationId, step.delta.parentId);
      assert deltas + ([step.delta] + rest.deltas) == (deltas + [step.delta]) + rest.deltas;
    }
  }

  /** The loop itself: reads the lines in order, yielding records and updating its local ids. */
  method ProcessLines(lines: seq<string>, prompt: string, decode: string -> Option<Payload>,
                      conversationId: Option<Id>, parentId: Option<Id>)
    returns (deltas: seq<Delta>, end: StreamEnd, lastConversationId: Option<Id>, lastParentId: Option<Id>)
    ensures StreamResult(deltas, end, lastConversationId, lastParentId)
         == Run(lines, prompt, decode, conversationId, parentId)
  {
    ghost var whole := Run(lines, prompt, decode, conversationId, parentId);
    deltas, lastConversationId, lastParentId := [], conversationId, parentId;
    assert lines[0..] == lines;
    var i := 0;
    while i < |lines|
      invariant 0 <= i <= |lines|
      invariant whole == Prepend(deltas, Run(lines[i..], prompt, decode, lastConversationId, lastParentId))
    {
      RunAt(lines, i, prompt, decode, whole, deltas, lastConversationId, lastParentId);
      var step := StepLine(lines[i], prompt, decode);
      match step {
        case Skip =>
        case Finish =>
          end := Sentinel;
          return;
        case Raise(f) =>
          end := Aborted(f);
          return;
        case Yield(d) =>
          deltas := deltas + [d];
          lastConversationId, lastParentId := d.conversationId, d.parentId;
      }
      i := i + 1;
    }
    assert lines[i..] == [];
    end := EndOfBody;
  }

  // ---------------------------------------------------------------------------
  // Properties of the loop

  /** Running over two pieces: the second piece is read only if the first was exhausted,
      starting from the ids the first left behind. */
  lemma {:induction false} RunAppend(pre: seq<string>, post: seq<string>, prompt: string,
                                    decode: string -> Option<Payload>, c: Option<Id>, p: Option<Id>)
    ensures var r := Run(pre, prompt, decode, c, p);
      Run(pre + post, prompt, decode, c, p)
      == if r.end == EndOfBody then Prepend(r.deltas, Run(post, prompt, decode, r.conversationId, r.parentId)) else r
    decreases |pre|
  {
    if pre == [] {
      assert pre + post == post;
      var q := Run(post, prompt, decode, c, p);
      assert [] + q.deltas == q.deltas;
    } else {
      assert (pre + post)[0] == pre[0];
      assert (pre + post)[1..] == pre[1..] + post;
      match StepLine(pre[0], prompt, decode) {
        case Skip => RunAppend(pre[1..], post, prompt, decode, c, p);
        case Finish =>
        case Raise(f) =>
        case Yield(d) =>
          RunAppend(pre[1..], post, prompt, decode, d.conversationId, d.parentId);
          var r1 := Run(pre[1..], prompt, decode, d.conversationId, d.parentId);
          if r1.end == EndOfBody {
            var q := Run(post, prompt, decode, r1.conversationId, r1.parentId);
            assert [d] + (r1.deltas + q.deltas) == ([d] + r1.deltas) + q.deltas;
          }
      }
    }
  }

  /** The lines the loop passes over: blank, undecodable after unescaping, or an echo of the prompt. */
  predicate Ignorable(line: string, prompt: string, decode: string -> Option<Payload>) {
    || line == ""
    || (line != FaultLine && StripFrame(line) != DoneSentinel &&
        match decode(Unescape(StripFrame(line)))
        case None => true
        case Some(p) =>
          CheckFields(p) && p.message.value.content.value.parts.Some?
          && var parts := p.message.value.content.value.parts.value;
          parts != [] && parts[0] == prompt)
  }

  /** A line is passed over exactly when it is blank, undecodable or an echo. */
  lemma IgnorableIsSkip(line: string, prompt: string, decode: string -> Option<Payload>)
    ensures StepLine(line, prompt, decode) == Skip <==> Ignorable(line, prompt, decode)
  {
  }

  /** Removing an ignorable line anywhere in the body changes nothing: no record, no id, no outcome. */
  lemma IgnorableLineIrrelevant(pre: seq<string>, line: string, post: seq<string>, prompt: string,
                                decode: string -> Option<Payload>, c: Option<Id>, p: Option<Id>)
    requires Ignorable(line, prompt, decode)
    ensures Run(pre + [line] + post, prompt, decode, c, p) == Run(pre + post, prompt, decode, c, p)
  {
    IgnorableIsSkip(line, prompt, decode);
    assert pre + [line] + post == pre + ([line] + post);
    RunAppend(pre, [line] + post, prompt, decode, c, p);
    RunAppend(pre, post, prompt, decode, c, p);
    var r := Run(pre, prompt, decode, c, p);
    assert ([line] + post)[1..] == post;
    assert Run([line] + post, prompt, decode, r.conversationId, r.parentId)
        == Run(post, prompt, decode, r.conversationId, r.parentId);
  }

  /** The fault line raises, and both spellings of the sentinel end the stream. */
  lemma ControlLines(prompt: string, decode: string -> Option<Payload>)
    ensures StepLine(FaultLine, prompt, decode) == Raise(ServerFault("Error: Internal Server Error"))
    ensures StepLine(DoneSentinel, prompt, decode) == Finish
    ensures StepLine(FramePrefix + DoneSentinel, prompt, decode) == Finish
  {
    FramedStrip(DoneSentinel);
    assert "Error: " + FaultLine == "Error: Internal Server Error";
    NotPrefix(FramePrefix, DoneSentinel, 0);
    assert !Contains(DoneSentinel, FramePrefix);
  }

  /** A framed line loses exactly its marker. */
  lemma FramedStrip(x: string)
    ensures StripFrame(FramePrefix + x) == x
  {
    assert FramePrefix <= FramePrefix + x;
    assert (FramePrefix + x)[|FramePrefix|..] == x;
  }

  /** After a line that ends the loop (the sentinel, the fault line, a failing payload) nothing more
      is read: the result is that of the lines before it, ended by that line unless it ended earlier. */
  lemma StopLineCutsStream(pre: seq<string>, line: string, post: seq<string>, prompt: string,
                           decode: string -> Option<Payload>, c: Option<Id>, p: Option<Id>)
    requires StepLine(line, prompt, decode).Finish? || StepLine(line, prompt, decode).Raise?
    ensures var r := Run(pre, prompt, decode, c, p);
      var stop := if StepLine(line, prompt, decode).Finish? then Sentinel
                  else Aborted(StepLine(line, prompt, decode).failure);
      Run(pre + [line] + post, prompt, decode, c, p)
      == if r.end == EndOfBody then r.(end := stop) else r
  {
    assert pre + [line] + post == pre + ([line] + post);
    RunAppend(pre, [line] + post, prompt, decode, c, p);
    var r := Run(pre, prompt, decode, c, p);
    if r.end == EndOfBody {
      var q := Run([line] + post, prompt, decode, r.conversationId, r.parentId);
      assert q.deltas == [];
      assert r.deltas + [] == r.deltas;
    }
  }

  /** A decoded payload without `message.content` aborts the loop on the spot, whatever follows. */
  lemma MissingContentAborts(line: string, post: seq<string>, prompt: string,
                             decode: string -> Option<Payload>, c: Option<Id>, p: Option<Id>)
    requires line != FaultLine && line != "" && StripFrame(line) != DoneSentinel
    requires decode(Unescape(StripFrame(line))).Some?
    requires !CheckFields(decode(Unescape(StripFrame(line))).value)
    ensures Run([line] + post, prompt, decode, c, p)
         == StreamResult([], Aborted(MissingFieldsFailure(decode(Unescape(StripFrame(line))).value)), c, p)
  {
  }

  /** The classification of a payload that fails the fields check, case by case. */
  lemma MissingFieldsCodes(p: Payload)
    requires !CheckFields(p)
    ensures var f := MissingFieldsFailure(p);
      && (f == ChatError("ask", Some(RateLimitText), RateLimitCode) <==> p.Object? && p.detail == DetailText(RateLimitText))
      && (f.ChatError? && f.code == InvalidRequestCode <==> p.Object? && p.detail.DetailObject? && p.detail.code == Some(InvalidKeyCode))
      && (f == ChatError("ask", Some(FieldMissing), ServerErrorCode)
          <==> p.Object? && (p.detail.NoDetail? || (p.detail.DetailObject? && p.detail.code != Some(InvalidKeyCode))))
      && (f == AttributeError
          <==> p.NonObject? || p.detail.DetailOther? || (p.detail.DetailText? && p.detail.text != RateLimitText))
  {
  }

  /** The failures the loop can raise: the fault line's, a code 1-3 error of `ask`, a lookup, an attribute or a type error. */
  predicate LoopFailure(f: Failure) {
    || f == ServerFault("Error: Internal Server Error")
    || (f.ChatError? && f.source == "ask" && 1 <= f.code <= 3)
    || f == LookupError
    || f == AttributeError
    || f == TypeError
  }

  lemma PayloadFailureKinds(p: Payload, prompt: string)
    ensures PayloadStep(p, prompt).Raise? ==> LoopFailure(PayloadStep(p, prompt).failure)
  {
  }

  lemma StepFailureKinds(line: string, prompt: string, decode: string -> Option<Payload>)
    ensures StepLine(line, prompt, decode).Raise? ==> LoopFailure(StepLine(line, prompt, decode).failure)
  {
    if line == FaultLine {
      assert "Error: " + FaultLine == "Error: Internal Server Error";
    } else if line != "" && StripFrame(line) != DoneSentinel && decode(Unescape(StripFrame(line))).Some? {
      PayloadFailureKinds(decode(Unescape(StripFrame(line))).value, prompt);
    }
  }

  /** Every failure the loop raises is one of LoopFailure's kinds; none is a user or HTTP error. */
  lemma {:induction false} RunFailureKinds(lines: seq<string>, prompt: string, decode: string -> Option<Payload>,
                                          c: Option<Id>, p: Option<Id>)
    ensures var e := Run(lines, prompt, decode, c, p).end;
      e.Aborted? ==> LoopFailure(e.failure)
    decreases |lines|
  {
    if lines != [] {
      StepFailureKinds(lines[0], prompt, decode);
      match StepLine(lines[0], prompt, decode) {
        case Skip => RunFailureKinds(lines[1..], prompt, decode, c, p);
        case Finish =>
        case Raise(f) =>
        case Yield(d) => RunFailureKinds(lines[1..], prompt, decode, d.conversationId, d.parentId);
      }
    }
  }

  /** No record repeats the prompt: echoes are never yielded. */
  lemma {:induction false} NoEchoYielded(lines: seq<string>, prompt: string, decode: string -> Option<Payload>,
                                        c: Option<Id>, p: Option<Id>)
    ensures forall d :: d in Run(lines, prompt, decode, c, p).deltas ==> d.message != prompt
    decreases |lines|
  {
    if lines != [] {
      match StepLine(lines[0], prompt, decode) {
        case Skip => NoEchoYielded(lines[1..], prompt, decode, c, p);
        case Finish =>
        case Raise(f) =>
        case Yield(d) => NoEchoYielded(lines[1..], prompt, decode, d.conversationId, d.parentId);
      }
    }
  }

  /** The loop's final ids are those of the last record yielded, or the starting ids if none was. */
  lemma {:induction false} RunFinalIds(lines: seq<string>, prompt: string, decode: string -> Option<Payload>,
                                      c: Option<Id>, p: Option<Id>)
    ensures var r := Run(lines, prompt, decode, c, p);
      && r.conversationId == (if r.deltas == [] then c else r.deltas[|r.deltas| - 1].conversationId)
      && r.parentId == (if r.deltas == [] then p else r.deltas[|r.deltas| - 1].parentId)
    decreases |lines|
  {
    if lines != [] {
      match StepLine(lines[0], prompt, decode) {
        case Skip => RunFinalIds(lines[1..], prompt, decode, c, p);
        case Finish =>
        case Raise(f) =>
        case Yield(d) => RunFinalIds(lines[1..], prompt, decode, d.conversationId, d.parentId);
      }
    }
  }

  /** Every record yielded is the record of some line of the body: the full `parts[0]` text,
      the payload's `conversation_id`, `message.id` as parent, and the model slug. */
  lemma {:induction false} DeltasFromLines(lines: seq<string>, prompt: string, decode: string -> Option<Payload>,
                                          c: Option<Id>, p: Option<Id>)
    ensures forall d :: d in Run(lines, prompt, decode, c, p).deltas ==>
      exists j :: 0 <= j < |lines| && StepLine(lines[j], prompt, decode) == Yield(d)
    decreases |lines|
  {
    if lines != [] {
      var step := StepLine(lines[0], prompt, decode);
      var rest := Run(lines[1..], prompt, decode,
                      if step.Yield? then step.delta.conversationId else c,
                      if step.Yield? then step.delta.parentId else p);
      DeltasFromLines(lines[1..], prompt, decode,
                      if step.Yield? then step.delta.conversationId else c,
                      if step.Yield? then step.delta.parentId else p);
      forall d | d in rest.deltas
        ensures exists j :: 0 <= j < |lines| && StepLine(lines[j], prompt, decode) == Yield(d)
      {
        var j :| 0 <= j < |lines[1..]| && StepLine(lines[1..][j], prompt, decode) == Yield(d);
        assert lines[1..][j] == lines[j + 1];
      }
    }
  }

  /** A yielded record carries the payload's own fields. */
  lemma YieldCarriesPayload(p: Payload, prompt: string)
    requires PayloadStep(p, prompt).Yield?
    ensures var d := PayloadStep(p, prompt).delta;
      && p.Object? && p.message.Some? && p.message.value.content.Some?
      && var m := p.message.value;
      && m.content.value.parts.Some? && m.content.value.parts.value != []
      && d.message == m.content.value.parts.value[0] && d.message != prompt
      && d.conversationId == (if p.conversationId.Str? then Some(p.conversationId.s) else None)
      && d.parentId == (if m.id.Str? then Some(m.id.s) else None)
      && !m.metadata.MetadataOther? && d.model == m.metadata.ModelSlug()
  {
  }

  /** Once the text and both ids are read, the metadata decides: a non-object `metadata` aborts the
      loop with TypeError, and a missing one or an object yields a record. */
  lemma MetadataDecides(p: Payload, prompt: string)
    requires CheckFields(p)
    requires var parts := p.message.value.content.value.parts;
      parts.Some? && parts.value != [] && parts.value[0] != prompt
    requires !p.conversationId.Absent? && !p.message.value.id.Absent?
    ensures PayloadStep(p, prompt) == Raise(TypeError) <==> p.message.value.metadata.MetadataOther?
    ensures PayloadStep(p, prompt).Yield? <==> !p.message.value.metadata.MetadataOther?
    ensures PayloadStep(p, prompt).Yield? ==> PayloadStep(p, prompt).delta.model == p.message.value.metadata.ModelSlug()
  {
  }

  // ---------------------------------------------------------------------------
  // A worked stream: an echo of the prompt, one reply, the sentinel

  const JsonHead := "{\"message\":{\"content\":"
  const JsonTail := "\"conversation_id\":\"c1\"}"
  const EchoJson := JsonHead + "{\"parts\":[\"Hello\"]},\"id\":\"m1\"}," + JsonTail
  const ReplyJson := JsonHead + "{\"parts\":[\"Hi there\"]},\"id\":\"m2\"}," + JsonTail
  const EchoPayload := Object(Some(Message(Some(Content(Some(["Hello"]))), Str("m1"), NoMetadata)), Str("c1"), NoDetail)
  const ReplyPayload := Object(Some(Message(Some(Content(Some(["Hi there"]))), Str("m2"), NoMetadata)), Str("c1"), NoDetail)

  lemma ExampleFramesPlain()
    ensures forall i :: 0 <= i < |EchoJson| ==> EchoJson[i] != '\\'
    ensures forall i :: 0 <= i < |ReplyJson| ==> ReplyJson[i] != '\\'
  {
    var echo, reply := "{\"parts\":[\"Hello\"]},\"id\":\"m1\"},", "{\"parts\":[\"Hi there\"]},\"id\":\"m2\"},";
    assert forall i :: 0 <= i < |JsonHead| ==> JsonHead[i] != '\\';
    assert forall i :: 0 <= i < |JsonTail| ==> JsonTail[i] != '\\';
    assert forall i :: 0 <= i < |echo| ==> echo[i] != '\\';
    assert forall i :: 0 <= i < |reply| ==> reply[i] != '\\';
  }

  /** A frame whose JSON has no backslash is decoded from its own text. */
  lemma PlainFrameStep(json: string, prompt: string, decode: string -> Option<Payload>)
    requires forall i :: 0 <= i < |json| ==> json[i] != '\\'
    requires |json| > |FaultLine| && decode(json).Some?
    ensures StepLine(FramePrefix + json, prompt, decode) == PayloadStep(decode(json).value, prompt)
  {
    FramedStrip(json);
    UnescapePlain(json);
    assert |DoneSentinel| < |FaultLine|;
  }

  /** A skipped line, a yielded line and a stopping line, in that order. */
  lemma SkipYieldFinish(l0: string, l1: string, l2: string, prompt: string, decode: string -> Option<Payload>,
                        d: Delta, c: Option<Id>, p: Option<Id>)
    requires StepLine(l0, prompt, decode) == Skip
    requires StepLine(l1, prompt, decode) == Yield(d)
    requires StepLine(l2, prompt, decode) == Finish
    ensures Run([l0, l1, l2], prompt, decode, c, p) == StreamResult([d], Sentinel, d.conversationId, d.parentId)
  {
    var lines := [l0, l1, l2];
    assert lines[1..] == [l1, l2];
    assert [l1, l2][1..] == [l2];
    var last := Run([l2], prompt, decode, d.conversationId, d.parentId);
    assert last == StreamResult([], Sentinel, d.conversationId, d.parentId);
    assert Run([l1, l2], prompt, decode, c, p) == Prepend([d], last);
    assert [d] + [] == [d];
  }

  lemma EchoFrameSkipped(decode: string -> Option<Payload>)
    requires decode(EchoJson) == Some(EchoPayload)
    ensures StepLine(FramePrefix + EchoJson, "Hello", decode) == Skip
  {
    ExampleFramesPlain();
    PlainFrameStep(EchoJson, "Hello", decode);
  }

  lemma ReplyFrameYielded(decode: string -> Option<Payload>)
    requires decode(ReplyJson) == Some(ReplyPayload)
    ensures StepLine(FramePrefix + ReplyJson, "Hello", decode) == Yield(Delta("Hi there", Some("c1"), Some("m2"), None))
  {
    ExampleFramesPlain();
    PlainFrameStep(ReplyJson, "Hello", decode);
  }

  /** With any decoder that reads the two frames as their JSON says, the prompt "Hello" gets exactly
      one record: the reply, with its conversation and message ids. */
  lemma EchoThenReply(decode: string -> Option<Payload>, c: Option<Id>, p: Option<Id>)
    requires decode(EchoJson) == Some(EchoPayload)
    requires decode(ReplyJson) == Some(ReplyPayload)
    ensures Run([FramePrefix + EchoJson, FramePrefix + ReplyJson, FramePrefix + DoneSentinel], "Hello", decode, c, p)
         == StreamResult([Delta("Hi there", Some("c1"), Some("m2"), None)], Sentinel, Some("c1"), Some("m2"))
  {
    EchoFrameSkipped(decode);
    ReplyFrameYielded(decode);
    ControlLines("Hello", decode);
    SkipYieldFinish(FramePrefix + EchoJson, FramePrefix + ReplyJson, FramePrefix + DoneSentinel, "Hello", decode,
                    Delta("Hi there", Some("c1"), Some("m2"), None), c, p);
  }
}

=== FILE: text.dfy ===
/** Python string operations the modelled code relies on, written out on `seq<char>`. */
module Text {

  /** Python's `t in s` for two strings: `t` occurs somewhere in `s`. */
  predicate Contains(s: string, t: string)
    ensures Contains(s, t) ==> |t| <= |s|
    decreases |s|
  {
    t <= s || (s != [] && Contains(s[1..], t))
  }

  /** Python's `s.replace(pat, rep)`: every non-overlapping occurrence of `pat`,
      scanning from the left, is replaced by `rep`. */
  function Replace(s: string, pat: string, rep: string): string
    requires pat != []
    decreases |s|
  {
    if s == [] then []
    else if pat <= s then rep + Replace(s[|pat|..], pat, rep)
    else [s[0]] + Replace(s[1..], pat, rep)
  }

  /** Replacing in a string that does not hold the first character of the pattern changes nothing. */
  lemma {:induction false} ReplaceAbsent(s: string, pat: string, rep: string)
    requires pat != []
    requires forall i :: 0 <= i < |s| ==> s[i] != pat[0]
    ensures Replace(s, pat, rep) == s
    decreases |s|
  {
    if s != [] {
      NotPrefix(pat, s, 0);
      ReplaceAbsent(s[1..], pat, rep);
    }
  }

  /** One unfolding of Replace at a position where the pattern does not start. */
  lemma ReplaceStep(c: char, rest: string, pat: string, rep: string)
    requires pat != [] && !(pat <= [c] + rest)
    ensures Replace([c] + rest, pat, rep) == [c] + Replace(rest, pat, rep)
  {
    assert ([c] + rest)[1..] == rest;
  }

  /** A pattern is not a prefix of a string that differs from it at position `k` or is shorter. */
  lemma NotPrefix(pat: string, s: string, k: nat)
    requires k < |pat| && (k < |s| ==> s[k] != pat[k])
    ensures !(pat <= s)
  {
  }

  /** One unfolding of Replace at a position where the pattern starts. */
  lemma ReplaceHit(rest: string, pat: string, rep: string)
    requires pat != []
    ensures Replace(pat + rest, pat, rep) == rep + Replace(rest, pat, rep)
  {
    assert pat <= pat + rest;
    assert (pat + rest)[|pat|..] == rest;
  }

  /** Python's `s.split(sep)` for a one-character separator. */
  function Split(s: string, sep: char): (parts: seq<string>)
    ensures |parts| >= 1
    decreases |s|
  {
    if s == [] then [[]]
    else
      var rest := Split(s[1..], sep);
      if s[0] == sep then [[]] + rest else [[s[0]] + rest[0]] + rest[1..]
  }

  /** Python's `sep.join(parts)`. */
  function Join(parts: seq<string>, sep: char): string
    decreases |parts|
  {
    if parts == [] then []
    else if |parts| == 1 then parts[0]
    else parts[0] + [sep] + Join(parts[1..], sep)
  }

  /** Splitting and joining again gives back the original string. */
  lemma {:induction false} JoinSplit(s: string, sep: char)
    ensures Join(Split(s, sep), sep) == s
    decreases |s|
  {
    if s != [] {
      var rest := Split(s[1..], sep);
      JoinSplit(s[1..], sep);
      if s[0] == sep {
        assert ([[]] + rest)[1..] == rest;
      } else {
        var parts := [[s[0]] + rest[0]] + rest[1..];
        assert parts[1..] == rest[1..];
        if |rest| > 1 {
          assert Join(rest, sep) == rest[0] + [sep] + Join(rest[1..], sep);
        }
      }
    }
  }

  /** No piece of a split holds the separator. */
  lemma {:induction false} SplitPiecesFree(s: string, sep: char)
    ensures forall k :: 0 <= k < |Split(s, sep)| ==> sep !in Split(s, sep)[k]
    decreases |s|
  {
    if s != [] {
      SplitPiecesFree(s[1..], sep);
    }
  }

  /** A split has a second piece exactly when the separator occurs. */
  lemma {:induction false} SplitHasSecondPiece(s: string, sep: char)
    ensures |Split(s, sep)| >= 2 <==> sep in s
    decreases |s|
  {
    if s != [] {
      SplitHasSecondPiece(s[1..], sep);
      assert s == [s[0]] + s[1..];
    }
  }
}

=== FILE: token_cache.dfy ===
/** The access-token cache of `Chatbot` (src/revChatGPT/V1.py:184-228): tokens are kept per e-mail
    under "access_tokens", and a cached token is checked for expiry by reading the `exp` claim of its
    middle JWT segment. Reading and writing the cache file are left to the caller; the cache is a value. */
module TokenCache {
  import opened Wrappers
  import opened Errors
  import opened Text

  /** The cache file's contents: top-level keys to string tables. */
  type Cache = map<string, map<string, string>>

  const AccessTokensKey := "access_tokens"
  const DefaultKey := "default"
  const TokenSource := "__get_cached_access_token"

  /** What the base64 and JSON decoding of the padded middle segment gives: nothing readable, or the
      claims with their `exp` (None when the claim is missing or null). */
  datatype Decoded = Undecodable | Claims(exp: Option<int>)

  /** The number of '=' that line 195 appends: the one count below four that makes the length a
      multiple of four (so zero for a length already a multiple). */
  function PadLength(n: nat): (k: nat)
    ensures k < 4 && (n + k) % 4 == 0
  {
    (4 - n % 4) % 4
  }

  /** The middle segment padded for base64: it is extended, only by '=', to a multiple of four. */
  function PadSegment(seg: string): (r: string)
    ensures seg <= r && |r| % 4 == 0 && |r| < |seg| + 4
    ensures forall i :: |seg| <= i < |r| ==> r[i] == '='
  {
    seg + seq(PadLength(|seg|), _ => '=')
  }

  /** A padded segment needs no further padding. */
  lemma PadSegmentIdempotent(seg: string)
    ensures PadSegment(PadSegment(seg)) == PadSegment(seg)
  {
    var r := PadSegment(seg);
    assert PadLength(|r|) == 0;
    assert seq(0, _ => '=') == [];
  }

  /** `email or "default"`: a missing or empty e-mail is stored under "default". */
  function CacheKey(email: Option<string>): (k: string)
    ensures k != ""
    ensures email.Some? && email.value != "" ==> k == email.value
    ensures email.None? || email.value == "" ==> k == DefaultKey
  {
    if email.Some? && email.value != "" then email.value else DefaultKey
  }

  /** `cache.get("access_tokens", {}).get(key, None)`. */
  function Lookup(cache: Cache, key: string): Option<string> {
    if AccessTokensKey in cache && key in cache[AccessTokensKey] then Some(cache[AccessTokensKey][key]) else None
  }

  /** Lines 191-217 on one stored token. */
  function ValidateToken(token: string, now: int, decode: string -> Decoded): Result<string, Failure> {
    var pieces := Split(token, '.');
    if |pieces| < 2 then Failure(LookupError)
    else match decode(PadSegment(pieces[1]))
      case Undecodable => Failure(ChatError(TokenSource, Some("Invalid access token"), InvalidTokenCode))
      case Claims(exp) =>
        if exp.Some? && exp.value < now then Failure(ChatError(TokenSource, Some("Access token expired"), ExpiredTokenCode))
        else Success(token)
  }

  /** `__get_cached_access_token`: no stored token gives None; a stored one is returned only if it
      passes the checks. */
  function GetCachedAccessToken(cache: Cache, email: Option<string>, now: int, decode: string -> Decoded)
    : Result<Option<string>, Failure>
  {
    match Lookup(cache, CacheKey(email))
    case None => Success(None)
    case Some(token) =>
      match ValidateToken(token, now, decode)
      case Success(t) => Success(Some(t))
      case Failure(f) => Failure(f)
  }

  /** The outcomes of the check on a stored token, each with exactly its cause: no '.' means the
      middle segment is missing (IndexError), an undecodable segment is code 5, an `exp` before
      `now` is code 4, and otherwise the token itself is returned. */
  lemma ValidateTokenOutcomes(token: string, now: int, decode: string -> Decoded)
    ensures ValidateToken(token, now, decode) == Failure(LookupError) <==> '.' !in token
    ensures '.' in token ==>
      var claims := decode(PadSegment(Split(token, '.')[1]));
      && ((ValidateToken(token, now, decode).Failure? && ValidateToken(token, now, decode).error.code == InvalidTokenCode)
            <==> claims.Undecodable?)
      && ((ValidateToken(token, now, decode).Failure? && ValidateToken(token, now, decode).error.code == ExpiredTokenCode)
            <==> claims.Claims? && claims.exp.Some? && claims.exp.value < now)
      && (ValidateToken(token, now, decode).Success? <==> claims.Claims? && (claims.exp.None? || claims.exp.value >= now))
    ensures ValidateToken(token, now, decode).Success? ==> ValidateToken(token, now, decode).value == token
  {
    SplitHasSecondPiece(token, '.');
  }

  /** A token whose claims carry no `exp` never expires. */
  lemma MissingExpNeverExpires(cache: Cache, email: Option<string>, now: int, decode: string -> Decoded)
    requires var t := Lookup(cache, CacheKey(email));
      t.Some? && |Split(t.value, '.')| >= 2 && decode(PadSegment(Split(t.value, '.')[1])) == Claims(None)
    ensures GetCachedAccessToken(cache, email, now, decode) == Success(Lookup(cache, CacheKey(email)))
  {
  }

  /** Expiry is monotone in time: a token rejected as expired stays rejected later. */
  lemma ExpiredStaysExpired(token: string, now: int, later: int, decode: string -> Decoded)
    requires now <= later
    requires ValidateToken(token, now, decode) == Failure(ChatError(TokenSource, Some("Access token expired"), ExpiredTokenCode))
    ensures ValidateToken(token, later, decode) == ValidateToken(token, now, decode)
  {
  }

  /** `__cache_access_token`'s update (lines 222-228): the token is stored under the e-mail's key,
      creating the "access_tokens" table if needed. */
  function CacheAccessToken(cache: Cache, email: string, token: string): (updated: Cache)
    ensures Lookup(updated, CacheKey(Some(email))) == Some(token)
    ensures forall key :: key != CacheKey(Some(email)) ==> Lookup(updated, key) == Lookup(cache, key)
    ensures forall top :: top in cache && top != AccessTokensKey ==> top in updated && updated[top] == cache[top]
    ensures updated.Keys == cache.Keys + {AccessTokensKey}
  {
    var tokens := if AccessTokensKey in cache then cache[AccessTokensKey] else map[];
    cache[AccessTokensKey := tokens[CacheKey(Some(email)) := token]]
  }

  /** Reading back right after caching checks exactly the token just stored, under the same key rule. */
  lemma CachedTokenReadBack(cache: Cache, email: string, token: string, now: int, decode: string -> Decoded)
    ensures GetCachedAccessToken(CacheAccessToken(cache, email, token), Some(email), now, decode)
         == match ValidateToken(token, now, decode)
            case Success(t) => Success(Some(t))
            case Failure(f) => Failure(f)
  {
  }
}

=== FILE: tracker.dfy ===
/** The conversation state of `Chatbot` (src/revChatGPT/V1.py:91-521): the current ids, the map from
    conversation to latest node, and the two history lists that `rollback_conversation` pops. */
module Tracker {
  import opened Wrappers
  import opened Errors
  import opened StreamParser

  /** Conversation id to latest node id. A None key or value is stored when the loop ends with None ids. */
  type Mapping = map<Option<Id>, Option<Id>>

  /** The tracker's fields, as values. */
  datatype State = State(conversationId: Option<Id>, parentId: Option<Id>, mapping: Mapping,
                         conversationQueue: seq<Option<Id>>, parentQueue: seq<Option<Id>>)

  /** The two history lists have one entry per request. */
  predicate Balanced(s: State) {
    |s.conversationQueue| == |s.parentQueue|
  }

  /** One pair of history entries: the ids a request was sent with. */
  datatype Entry = Entry(conversationId: Option<Id>, parentId: Option<Id>)

  /** One conversation of the remote listing with its `current_node`, as the resync reads them. */
  datatype Listed = Listed(id: Id, currentNode: Id)

  /** The HTTP reply: status, text, and the body's lines. */
  datatype Response = Response(status: int, text: string, lines: seq<string>)

  /** The arguments of one `ask`, with what the outside world supplies: the fresh UUID,
      the remote listing a resync would read, and the reply. */
  datatype Request = Request(prompt: string, conversationId: Option<Id>, parentId: Option<Id>,
                             freshId: Id, listing: seq<Listed>, response: Response)

  datatype Outcome = Finished | Raised(failure: Failure)

  /** The state after one `ask` consumed to the end, what it yielded, and how it ended. */
  datatype Exchange = Exchange(state: State, deltas: seq<Delta>, outcome: Outcome)

  datatype RolledBack = RolledBack(state: State, completed: bool)

  const UserErrorMessage := "conversation_id must be set once parent_id is set"

  /** Python's `a or b` on optional strings: `a` unless it is None or empty. */
  function Or(a: Option<Id>, b: Option<Id>): Option<Id> {
    if a.Some? && a.value != "" then a else b
  }

  // ---------------------------------------------------------------------------
  // Resolution of the ids to send (src/revChatGPT/V1.py:286-313)

  /** `__map_conversations` (src/revChatGPT/V1.py:496-500): each listed conversation, in order, is mapped to its node. */
  function MergeListing(m: Mapping, listing: seq<Listed>): Mapping
    decreases |listing|
  {
    if listing == [] then m
    else MergeListing(m[Some(listing[0].id) := Some(listing[0].currentNode)], listing[1..])
  }

  /** After a resync a conversation is known exactly when it was known before or is listed. */
  lemma {:induction false} MergeListingKeys(m: Mapping, listing: seq<Listed>, c: Id)
    ensures Some(c) in MergeListing(m, listing) <==> Some(c) in m || exists j :: 0 <= j < |listing| && listing[j].id == c
    ensures MergeListing(m, listing).Keys >= m.Keys
    decreases |listing|
  {
    if listing != [] {
      var m' := m[Some(listing[0].id) := Some(listing[0].currentNode)];
      MergeListingKeys(m', listing[1..], c);
      if exists j :: 0 <= j < |listing[1..]| && listing[1..][j].id == c {
        var j :| 0 <= j < |listing[1..]| && listing[1..][j].id == c;
        assert listing[j + 1].id == c;
      }
      if exists j :: 0 <= j < |listing| && listing[j].id == c {
        var j :| 0 <= j < |listing| && listing[j].id == c;
        if j > 0 {
          assert listing[1..][j - 1].id == c;
        }
      }
    }
  }

  /** The last position of a conversation in the listing, or -1 when it is not listed. */
  function LastListed(listing: seq<Listed>, c: Id): (j: int)
    ensures -1 <= j < |listing|
    ensures j >= 0 ==> listing[j].id == c
    ensures forall k :: j < k < |listing| ==> listing[k].id != c
    decreases |listing|
  {
    if listing == [] then -1
    else if listing[|listing| - 1].id == c then |listing| - 1
    else LastListed(listing[..|listing| - 1], c)
  }

  /** A resync maps a listed conversation to the `current_node` of its last listing. */
  lemma {:induction false} MergeListingLast(m: Mapping, listing: seq<Listed>, j: int)
    requires 0 <= j < |listing|
    requires forall k :: j < k < |listing| ==> listing[k].id != listing[j].id
    ensures var r := MergeListing(m, listing);
      Some(listing[j].id) in r && r[Some(listing[j].id)] == Some(listing[j].currentNode)
    decreases |listing|
  {
    var m' := m[Some(listing[0].id) := Some(listing[0].currentNode)];
    if j == 0 {
      MergeListingUnlisted(m', listing[1..], Some(listing[0].id));
    } else {
      assert forall k :: j - 1 < k < |listing[1..]| ==> listing[1..][k].id == listing[k + 1].id;
      MergeListingLast(m', listing[1..], j - 1);
    }
  }

  /** A resync leaves a key that is not listed with its old node. */
  lemma {:induction false} MergeListingUnlisted(m: Mapping, listing: seq<Listed>, key: Option<Id>)
    requires key in m
    requires forall k :: 0 <= k < |listing| ==> Some(listing[k].id) != key
    ensures var r := MergeListing(m, listing);
      key in r && r[key] == m[key]
    decreases |listing|
  {
    if listing != [] {
      var m' := m[Some(listing[0].id) := Some(listing[0].currentNode)];
      assert forall k :: 0 <= k < |listing[1..]| ==> listing[1..][k] == listing[k + 1];
      MergeListingUnlisted(m', listing[1..], key);
    }
  }

  datatype Resolution =
    /** Lines 286-288: a parent without a conversation; raised before anything changes. */
    | Rejected
    /** Lines 307-313: the conversation is still unknown after the resync; KeyError. */
    | Unmapped(storedParent: Option<Id>, mapping: Mapping)
    /** The ids to send, the stored parent after line 292, the mapping after any resync. */
    | Resolved(conversationId: Option<Id>, parentId: Option<Id>, storedParent: Option<Id>, mapping: Mapping, resynced: bool)

  function Resolve(s: State, q: Request): Resolution {
    if q.parentId.Some? && q.conversationId.None? then Rejected
    else
      var storedParent := if q.conversationId.Some? && q.conversationId != s.conversationId then None else s.parentId;
      var c := Or(q.conversationId, s.conversationId);
      var p := Or(q.parentId, storedParent);
      if c.None? && p.None? then Resolved(c, Some(q.freshId), storedParent, s.mapping, false)
      else if c.Some? && p.None? then
        var resync := c !in s.mapping;
        var m := if resync then MergeListing(s.mapping, q.listing) else s.mapping;
        if c in m then Resolved(c, m[c], storedParent, m, resync) else Unmapped(storedParent, m)
      else Resolved(c, p, storedParent, s.mapping, false)
  }

  /** The order of resolution: a new explicit conversation drops the stored parent; missing or empty
      arguments fall back to the stored ids; with no ids at all the fresh id is the parent; with a
      conversation but no parent the parent comes from the mapping, a resync runs only for an unknown
      conversation, and KeyError follows only if neither the mapping nor the listing knows it. */
  lemma ResolveOrder(s: State, q: Request)
    ensures Resolve(s, q).Rejected? <==> q.parentId.Some? && q.conversationId.None?
    ensures var r := Resolve(s, q);
      !r.Rejected? ==>
        var storedParent := if q.conversationId.Some? && q.conversationId != s.conversationId then None else s.parentId;
        var c := Or(q.conversationId, s.conversationId);
        var p := Or(q.parentId, storedParent);
        && r.storedParent == storedParent
        && (q.conversationId.Some? && q.conversationId != s.conversationId ==> r.storedParent == None)
        && (r.Resolved? ==> r.conversationId == c)
        && (c.None? ==> r == Resolved(None, if p.None? then Some(q.freshId) else p, storedParent, s.mapping, false))
        && (c.Some? && p.Some? ==> r == Resolved(c, p, storedParent, s.mapping, false))
        && (c.Some? && p.None? ==>
              && (r.Resolved? ==> r.resynced == (c !in s.mapping) && r.parentId == r.mapping[c])
              && (r.Resolved? && !r.resynced ==> r.mapping == s.mapping && r.parentId == s.mapping[c])
              && (r.Unmapped? ==> r.mapping == MergeListing(s.mapping, q.listing))
              && (r.Unmapped? <==> c.value !in KnownIds(s.mapping, q.listing)))
  {
    var c := Or(q.conversationId, s.conversationId);
    if c.Some? {
      MergeListingKeys(s.mapping, q.listing, c.value);
    }
  }

  /** The conversations known after a resync: mapped already, or listed. */
  function KnownIds(m: Mapping, listing: seq<Listed>): set<Id> {
    (set k | k in m && k.Some? :: k.value) + (set j | 0 <= j < |listing| :: listing[j].id)
  }

  /** After a resync the parent sent is the `current_node` of the conversation's last listing. */
  lemma ResyncTakesListedNode(s: State, q: Request)
    requires Resolve(s, q).Resolved? && Resolve(s, q).resynced
    ensures var r := Resolve(s, q);
      var j := LastListed(q.listing, r.conversationId.value);
      && j >= 0
      && r.parentId == Some(q.listing[j].currentNode)
      && r.mapping == MergeListing(s.mapping, q.listing)
  {
    var r := Resolve(s, q);
    var c := r.conversationId.value;
    MergeListingKeys(s.mapping, q.listing, c);
    var j := LastListed(q.listing, c);
    if j < 0 {
      assert false;
    }
    MergeListingLast(s.mapping, q.listing, j);
  }

  // ---------------------------------------------------------------------------
  // One whole `ask` (src/revChatGPT/V1.py:286-402)

  /** Lines 398-402: record the last node of the conversation; keep the stored ids where the loop ended with None. */
  function Commit(s: State, c: Option<Id>, p: Option<Id>): State {
    s.(mapping := s.mapping[c := p],
       parentId := if p.Some? then p else s.parentId,
       conversationId := if c.Some? then c else s.conversationId)
  }

  /** `ask` run until its generator is exhausted or raises. */
  function AskStep(s: State, q: Request, decode: string -> Option<Payload>): Exchange {
    match Resolve(s, q)
    case Rejected => Exchange(s, [], Raised(ChatError("User", Some(UserErrorMessage), UserErrorCode)))
    case Unmapped(sp, m) => Exchange(s.(parentId := sp, mapping := m), [], Raised(LookupError))
    case Resolved(c, p, sp, m, _) =>
      var sent := s.(parentId := sp, mapping := m,
                     conversationQueue := s.conversationQueue + [c], parentQueue := s.parentQueue + [p]);
      if q.response.status != 200 then Exchange(sent, [], Raised(HttpStatusError(q.response.status, q.response.text)))
      else
        var r := Run(q.response.lines, q.prompt, decode, c, p);
        if r.end.Aborted? then Exchange(sent, r.deltas, Raised(r.end.failure))
        else Exchange(Commit(sent, r.conversationId, r.parentId), r.deltas, Finished)
  }

  /** The history entry a request pushes: one once resolution succeeds, none otherwise. */
  function PushedBy(s: State, q: Request): seq<Entry> {
    match Resolve(s, q)
    case Resolved(c, p, _, _, _) => [Entry(c, p)]
    case _ => []
  }

  function Convs(es: seq<Entry>): seq<Option<Id>> {
    seq(|es|, i requires 0 <= i < |es| => es[i].conversationId)
  }

  function Parents(es: seq<Entry>): seq<Option<Id>> {
    seq(|es|, i requires 0 <= i < |es| => es[i].parentId)
  }

  /** A request that gets past resolution pushes exactly its resolved pair onto the two lists, however
      the reply ends; one that does not pushes nothing. The lists stay the same length. */
  lemma AskPushesOnce(s: State, q: Request, decode: string -> Option<Payload>)
    ensures var t := AskStep(s, q, decode).state;
      && t.conversationQueue == s.conversationQueue + Convs(PushedBy(s, q))
      && t.parentQueue == s.parentQueue + Parents(PushedBy(s, q))
      && (Balanced(s) ==> Balanced(t))
  {
    var e := PushedBy(s, q);
    assert e == [] ==> s.conversationQueue + Convs(e) == s.conversationQueue && s.parentQueue + Parents(e) == s.parentQueue;
  }

  /** The user error is raised exactly when a parent comes without a conversation, and then nothing changes. */
  lemma UserErrorIff(s: State, q: Request, decode: string -> Option<Payload>)
    ensures var x := AskStep(s, q, decode);
      (x.outcome.Raised? && x.outcome.failure.ChatError? && x.outcome.failure.code == UserErrorCode)
      <==> q.parentId.Some? && q.conversationId.None?
    ensures q.parentId.Some? && q.conversationId.None? ==>
      AskStep(s, q, decode) == Exchange(s, [], Raised(ChatError("User", Some(UserErrorMessage), UserErrorCode)))
  {
    match Resolve(s, q) {
      case Rejected =>
      case Unmapped(_, _) =>
      case Resolved(c, p, _, _, _) =>
        RunFailureKinds(q.response.lines, q.prompt, decode, c, p);
    }
  }

  /** A finished request records its last node: the final ids of the loop (the last record's, or the
      resolved ones when nothing was yielded) go into the mapping, and the stored ids take them
      only where they are not None. */
  lemma CommitAfterStream(s: State, q: Request, decode: string -> Option<Payload>)
    requires AskStep(s, q, decode).outcome == Finished
    ensures var r := Resolve(s, q);
      && r.Resolved?
      && var x := AskStep(s, q, decode);
      && var last := if x.deltas == [] then Entry(r.conversationId, r.parentId)
                     else Entry(x.deltas[|x.deltas| - 1].conversationId, x.deltas[|x.deltas| - 1].parentId);
      && x.state.mapping == r.mapping[last.conversationId := last.parentId]
      && x.state.conversationId == (if last.conversationId.Some? then last.conversationId else s.conversationId)
      && x.state.parentId == (if last.parentId.Some? then last.parentId else r.storedParent)
  {
    var r := Resolve(s, q);
    AskFinished(s, q, decode);
    RunFinalIds(q.response.lines, q.prompt, decode, r.conversationId, r.parentId);
  }

  /** A request finishes exactly when it was resolved, got status 200 and its loop did not abort; the
      state of a finished one is the commit of the loop's final ids. */
  lemma AskFinished(s: State, q: Request, decode: string -> Option<Payload>)
    ensures var r := Resolve(s, q);
      AskStep(s, q, decode).outcome == Finished
      <==> r.Resolved? && q.response.status == 200
           && !Run(q.response.lines, q.prompt, decode, r.conversationId, r.parentId).end.Aborted?
    ensures AskStep(s, q, decode).outcome == Finished ==>
      var r := Resolve(s, q);
      && r.Resolved?
      && var run := Run(q.response.lines, q.prompt, decode, r.conversationId, r.parentId);
      && var x := AskStep(s, q, decode);
      && x.deltas == run.deltas
      && x.state.mapping == r.mapping[run.conversationId := run.parentId]
      && x.state.conversationId == (if run.conversationId.Some? then run.conversationId else s.conversationId)
      && x.state.parentId == (if run.parentId.Some? then run.parentId else r.storedParent)
  {
  }

  /** A request that raises commits nothing (lines 398-402 are never reached): after the push, a status
      error leaves no record and raises HttpStatusError, and a raising loop leaves its records and its
      failure; a conversation neither mapped nor listed raises KeyError and keeps only the parent
      reset and the resynced mapping. */
  lemma AskRaisedNoCommit(s: State, q: Request, decode: string -> Option<Payload>)
    ensures var r := Resolve(s, q);
      var x := AskStep(s, q, decode);
      r.Resolved? && x.outcome.Raised? ==>
        && x.state == s.(parentId := r.storedParent, mapping := r.mapping,
                         conversationQueue := s.conversationQueue + [r.conversationId],
                         parentQueue := s.parentQueue + [r.parentId])
        && (q.response.status != 200 ==>
              x.deltas == [] && x.outcome.failure == HttpStatusError(q.response.status, q.response.text))
        && (q.response.status == 200 ==>
              var run := Run(q.response.lines, q.prompt, decode, r.conversationId, r.parentId);
              run.end.Aborted? && x.deltas == run.deltas && x.outcome.failure == run.end.failure)
    ensures var r := Resolve(s, q);
      r.Unmapped? ==>
        AskStep(s, q, decode)
          == Exchange(s.(parentId := r.storedParent, mapping := MergeListing(s.mapping, q.listing)), [], Raised(LookupError))
  {
    ResolveOrder(s, q);
  }

  /** Mapping entries are never removed by `ask`. */
  lemma AskKeepsMappingKeys(s: State, q: Request, decode: string -> Option<Payload>)
    ensures AskStep(s, q, decode).state.mapping.Keys >= s.mapping.Keys
  {
    var c := Or(q.conversationId, s.conversationId);
    if c.Some? {
      MergeListingKeys(s.mapping, q.listing, c.value);
    }
  }

  /** A conversation is resynced at most once: after a finished request for it, whose reply kept its
      id, a later request for it with no parent resolves without a resync; where the stored parent
      does not supply the parent either, it is taken from the mapping the first request recorded. */
  lemma ResyncAtMostOnce(s: State, q1: Request, q2: Request, decode: string -> Option<Payload>, c: Id)
    requires c != "" && q1.conversationId == Some(c) && q2.conversationId == Some(c) && q2.parentId.None?
    requires AskStep(s, q1, decode).outcome == Finished
    requires forall d :: d in AskStep(s, q1, decode).deltas ==> d.conversationId == Some(c)
    ensures var r := Resolve(AskStep(s, q1, decode).state, q2);
      r.Resolved? && !r.resynced
    ensures var t := AskStep(s, q1, decode).state;
      var r := Resolve(t, q2);
      Or(q2.parentId, r.storedParent).None? ==> r.parentId == t.mapping[Some(c)]
  {
    var x := AskStep(s, q1, decode);
    CommitAfterStream(s, q1, decode);
    if x.deltas != [] {
      assert x.deltas[|x.deltas| - 1] in x.deltas;
    }
    assert Some(c) in x.state.mapping;
    ResolveOrder(x.state, q2);
  }

  // ---------------------------------------------------------------------------
  // reset_chat and rollback_conversation (src/revChatGPT/V1.py:503-521)

  /** `reset_chat`: no conversation, a fresh parent; history and mapping untouched. */
  function Reset(s: State, freshId: Id): (t: State)
    ensures t.conversationId == None && t.parentId == Some(freshId)
    ensures t.mapping == s.mapping && t.conversationQueue == s.conversationQueue && t.parentQueue == s.parentQueue
  {
    s.(conversationId := None, parentId := Some(freshId))
  }

  /** `rollback_conversation(n)`: `n` times, pop the conversation list into the current conversation,
      then the parent list into the current parent; `completed` is false when a pop on an empty list
      raised IndexError, leaving what was popped before it. */
  function Rollback(s: State, n: int): RolledBack
    decreases if n > 0 then n else 0
  {
    if n <= 0 then RolledBack(s, true)
    else if s.conversationQueue == [] then RolledBack(s, false)
    else
      var k := |s.conversationQueue| - 1;
      var s1 := s.(conversationId := s.conversationQueue[k], conversationQueue := s.conversationQueue[..k]);
      if s.parentQueue == [] then RolledBack(s1, false)
      else
        var j := |s.parentQueue| - 1;
        Rollback(s1.(parentId := s.parentQueue[j], parentQueue := s.parentQueue[..j]), n - 1)
  }

  /** Rolling back keeps the two lists the same length, however it ends. */
  lemma RollbackKeepsBalance(s: State, n: int)
    requires Balanced(s)
    ensures Balanced(Rollback(s, n).state)
  {
    if n > |s.conversationQueue| {
      RollbackBeyond(s, n);
    } else if n > 0 {
      RollbackWithin(s, n);
    }
  }

  /** Rolling back n <= (history length) steps drops the last n entries of both lists and makes the
      n-th most recent pair current. */
  lemma {:induction false} RollbackWithin(s: State, n: int)
    requires Balanced(s) && 0 < n <= |s.conversationQueue|
    ensures var k := |s.conversationQueue| - n;
      Rollback(s, n) == RolledBack(s.(conversationId := s.conversationQueue[k], parentId := s.parentQueue[k],
                                      conversationQueue := s.conversationQueue[..k], parentQueue := s.parentQueue[..k]), true)
    decreases n
  {
    var k := |s.conversationQueue| - 1;
    var t := s.(conversationId := s.conversationQueue[k], parentId := s.parentQueue[k],
                conversationQueue := s.conversationQueue[..k], parentQueue := s.parentQueue[..k]);
    if n > 1 {
      RollbackWithin(t, n - 1);
      var j := |s.conversationQueue| - n;
      assert t.conversationQueue[..j] == s.conversationQueue[..j];
      assert t.parentQueue[..j] == s.parentQueue[..j];
    }
  }

  /** Rolling back more steps than there are entries empties both lists, makes the oldest pair
      current, and fails. */
  lemma {:induction false} RollbackBeyond(s: State, n: int)
    requires Balanced(s) && n > |s.conversationQueue|
    ensures var r := Rollback(s, n);
      && !r.completed
      && r.state.conversationQueue == [] && r.state.parentQueue == []
      && r.state.mapping == s.mapping
      && (s.conversationQueue == [] ==> r.state == s)
      && (s.conversationQueue != [] ==>
            r.state.conversationId == s.conversationQueue[0] && r.state.parentId == s.parentQueue[0])
    decreases n
  {
    if s.conversationQueue != [] {
      var k := |s.conversationQueue| - 1;
      var t := s.(conversationId := s.conversationQueue[k], parentId := s.parentQueue[k],
                  conversationQueue := s.conversationQueue[..k], parentQueue := s.parentQueue[..k]);
      RollbackBeyond(t, n - 1);
      if k > 0 {
        assert t.conversationQueue[0] == s.conversationQueue[0];
        assert t.parentQueue[0] == s.parentQueue[0];
      }
    }
  }

  // ---------------------------------------------------------------------------
  // Many requests, then a rollback

  /** The state after a sequence of requests, each consumed to the end. */
  function Replay(s: State, qs: seq<Request>, decode: string -> Option<Payload>): State
    decreases |qs|
  {
    if qs == [] then s else Replay(AskStep(s, qs[0], decode).state, qs[1..], decode)
  }

  /** The history entries a sequence of requests pushes, oldest first. */
  function Log(s: State, qs: seq<Request>, decode: string -> Option<Payload>): seq<Entry>
    decreases |qs|
  {
    if qs == [] then [] else PushedBy(s, qs[0]) + Log(AskStep(s, qs[0], decode).state, qs[1..], decode)
  }

  /** One more request's pushed entries, then the rest's, are the entries of both. */
  lemma QueuesAppend(s: State, s1: State, t: State, e: seq<Entry>, rest: seq<Entry>)
    requires s1.conversationQueue == s.conversationQueue + Convs(e) && s1.parentQueue == s.parentQueue + Parents(e)
    requires t.conversationQueue == s1.conversationQueue + Convs(rest) && t.parentQueue == s1.parentQueue + Parents(rest)
    ensures t.conversationQueue == s.conversationQueue + Convs(e + rest)
    ensures t.parentQueue == s.parentQueue + Parents(e + rest)
  {
    assert Convs(e + rest) == Convs(e) + Convs(rest);
    assert Parents(e + rest) == Parents(e) + Parents(rest);
  }

  lemma ReplayUnfold(s: State, qs: seq<Request>, decode: string -> Option<Payload>)
    requires qs != []
    ensures var s1 := AskStep(s, qs[0], decode).state;
      && Replay(s, qs, decode) == Replay(s1, qs[1..], decode)
      && Log(s, qs, decode) == PushedBy(s, qs[0]) + Log(s1, qs[1..], decode)
  {
  }

  /** After any sequence of requests the two lists are the old lists followed by what each request
      pushed, in order. */
  lemma {:induction false} ReplayQueues(s: State, qs: seq<Request>, decode: string -> Option<Payload>)
    ensures var t := Replay(s, qs, decode);
      && t.conversationQueue == s.conversationQueue + Convs(Log(s, qs, decode))
      && t.parentQueue == s.parentQueue + Parents(Log(s, qs, decode))
    decreases |qs|
  {
    if qs == [] {
      assert Log(s, qs, decode) == [];
      assert Replay(s, qs, decode) == s;
    } else {
      var s1 := AskStep(s, qs[0], decode).state;
      AskPushesOnce(s, qs[0], decode);
      ReplayQueues(s1, qs[1..], decode);
      ReplayUnfold(s, qs, decode);
      QueuesAppend(s, s1, Replay(s1, qs[1..], decode), PushedBy(s, qs[0]), Log(s1, qs[1..], decode));
    }
  }

  /** Rolling back into a log of pushed entries that sits on top of balanced lists. */
  lemma RollbackIntoLog(s: State, t: State, log: seq<Entry>, k: int)
    requires Balanced(s) && 0 < k <= |log|
    requires t.conversationQueue == s.conversationQueue + Convs(log) && t.parentQueue == s.parentQueue + Parents(log)
    ensures Rollback(t, k) == RolledBack(t.(conversationId := log[|log| - k].conversationId, parentId := log[|log| - k].parentId,
                                            conversationQueue := s.conversationQueue + Convs(log[..|log| - k]),
                                            parentQueue := s.parentQueue + Parents(log[..|log| - k])), true)
  {
    RollbackWithin(t, k);
    var j := |t.conversationQueue| - k;
    assert t.conversationQueue[j] == Convs(log)[|log| - k];
    assert t.parentQueue[j] == Parents(log)[|log| - k];
    assert t.conversationQueue[..j] == s.conversationQueue + Convs(log[..|log| - k]);
    assert t.parentQueue[..j] == s.parentQueue + Parents(log[..|log| - k]);
  }

  /** After any sequence of requests, rolling back k of the pushed entries makes current the pair
      that the k-th most recent request getting past resolution was sent with, however its reply
      ended (a status error or a raising loop included), and leaves the entries before it. */
  lemma RollbackRestoresPushed(s: State, qs: seq<Request>, decode: string -> Option<Payload>, k: int)
    requires Balanced(s)
    requires 0 < k <= |Log(s, qs, decode)|
    ensures var log := Log(s, qs, decode);
      var t := Replay(s, qs, decode);
      var r := Rollback(t, k);
      && r.completed
      && r.state.conversationId == log[|log| - k].conversationId
      && r.state.parentId == log[|log| - k].parentId
      && r.state.conversationQueue == s.conversationQueue + Convs(log[..|log| - k])
      && r.state.parentQueue == s.parentQueue + Parents(log[..|log| - k])
      && r.state.mapping == t.mapping
  {
    ReplayQueues(s, qs, decode);
    RollbackIntoLog(s, Replay(s, qs, decode), Log(s, qs, decode), k);
  }

  // ---------------------------------------------------------------------------
  // The object

  class Chatbot {
    var conversationId: Option<Id>
    var parentId: Option<Id>
    var conversationMapping: Mapping
    var conversationIdPrevQueue: seq<Option<Id>>
    var parentIdPrevQueue: seq<Option<Id>>

    predicate Valid()
      reads this
    {
      |conversationIdPrevQueue| == |parentIdPrevQueue|
    }

    function Snapshot(): State
      reads this
    {
      State(conversationId, parentId, conversationMapping, conversationIdPrevQueue, parentIdPrevQueue)
    }

    /** The state part of `__init__` (src/revChatGPT/V1.py:139-143). */
    constructor (conversationId: Option<Id>, parentId: Option<Id>)
      ensures Valid() && Balanced(Snapshot())
      ensures Snapshot() == State(conversationId, parentId, map[], [], [])
    {
      this.conversationId := conversationId;
      this.parentId := parentId;
      conversationMapping := map[];
      conversationIdPrevQueue := [];
      parentIdPrevQueue := [];
    }

    /** `__map_conversations`: the mapping takes each listed conversation's current node, in order. */
    method MapConversations(listing: seq<Listed>)
      modifies this
      ensures old(Valid()) ==> Valid()
      ensures Snapshot() == old(Snapshot()).(mapping := MergeListing(old(conversationMapping), listing))
    {
      var i := 0;
      while i < |listing|
        invariant 0 <= i <= |listing|
        invariant MergeListing(old(conversationMapping), listing) == MergeListing(conversationMapping, listing[i..])
        invariant Snapshot() == old(Snapshot()).(mapping := conversationMapping)
      {
        assert listing[i..][1..] == listing[i + 1..];
        conversationMapping := conversationMapping[Some(listing[i].id) := Some(listing[i].currentNode)];
        i := i + 1;
      }
    }

    /** `ask`, its generator consumed until it is exhausted or raises. */
    method Ask(prompt: string, conversationId: Option<Id>, parentId: Option<Id>, freshId: Id,
               listing: seq<Listed>, response: Response, decode: string -> Option<Payload>)
      returns (deltas: seq<Delta>, outcome: Outcome)
      requires Valid()
      modifies this
      ensures Valid()
      ensures Exchange(Snapshot(), deltas, outcome)
           == AskStep(old(Snapshot()), Request(prompt, conversationId, parentId, freshId, listing, response), decode)
    {
      ghost var q := Request(prompt, conversationId, parentId, freshId, listing, response);
      deltas := [];
      if parentId.Some? && conversationId.None? {
        outcome := Raised(ChatError("User", Some(UserErrorMessage), UserErrorCode));
        return;
      }
      if conversationId.Some? && conversationId != this.conversationId {
        this.parentId := None;
      }
      var conv := Or(conversationId, this.conversationId);
      var parent := Or(parentId, this.parentId);
      if conv.None? && parent.None? {
        parent := Some(freshId);
      }
      if conv.Some? && parent.None? {
        if conv !in conversationMapping {
          MapConversations(listing);
        }
        if conv !in conversationMapping {
          outcome := Raised(LookupError);
          return;
        }
        parent := conversationMapping[conv];
      }
      assert Resolve(old(Snapshot()), q) == Resolved(conv, parent, this.parentId, conversationMapping, Resolve(old(Snapshot()), q).resynced);
      conversationIdPrevQueue := conversationIdPrevQueue + [conv];
      parentIdPrevQueue := parentIdPrevQueue + [parent];
      if response.status != 200 {
        outcome := Raised(HttpStatusError(response.status, response.text));
        return;
      }
      var end;
      deltas, end, conv, parent := ProcessLines(response.lines, prompt, decode, conv, parent);
      if end.Aborted? {
        outcome := Raised(end.failure);
        return;
      }
      conversationMapping := conversationMapping[conv := parent];
      if parent.Some? {
        this.parentId := parent;
      }
      if conv.Some? {
        this.conversationId := conv;
      }
      outcome := Finished;
    }

    /** `reset_chat`. */
    method ResetChat(freshId: Id)
      modifies this
      ensures old(Valid()) ==> Valid()
      ensures Snapshot() == Reset(old(Snapshot()), freshId)
    {
      conversationId := None;
      parentId := Some(freshId);
    }

    /** `rollback_conversation`; `completed` is false where the source raises IndexError. */
    method RollbackConversation(num: int) returns (completed: bool)
      modifies this
      ensures old(Valid()) ==> Valid()
      ensures RolledBack(Snapshot(), completed) == Rollback(old(Snapshot()), num)
    {
      if Valid() {
        RollbackKeepsBalance(Snapshot(), num);
      }
      completed := true;
      var i := 0;
      while i < num
        invariant 0 <= i && (num > 0 ==> i <= num)
        invariant Rollback(old(Snapshot()), num) == Rollback(Snapshot(), num - i)
        decreases num - i
      {
        if conversationIdPrevQueue == [] {
          completed := false;
          return;
        }
        var k := |conversationIdPrevQueue| - 1;
        conversationId := conversationIdPrevQueue[k];
        conversationIdPrevQueue := conversationIdPrevQueue[..k];
        if parentIdPrevQueue == [] {
          completed := false;
          return;
        }
        var j := |parentIdPrevQueue| - 1;
        parentId := parentIdPrevQueue[j];
        parentIdPrevQueue := parentIdPrevQueue[..j];
        i := i + 1;
      }
    }
  }
}

=== FILE: wrappers.dfy ===
/** Option and Result, the two failure-carrying wrappers the model uses. */
module Wrappers {

  /** Python's `None` or a value. */
  datatype Option<+T> = None | Some(value: T)

  /** A value, or the exception that was raised instead of returning one. */
  datatype Result<+R, +E> = Success(value: R) | Failure(error: E)
}
